=== FILE: README.md ===
# Event announcements: admin and public scripts, modelled in Dafny

This project models the deterministic logic in the two browser scripts of a
venue's event site:

- `assets/js/admin.js` is the operator's page. It signs in and out, restores
  the session on load, reacts to auth notifications, and lists the five latest
  events. Its event form uploads an image and inserts a new `events` row.
- `assets/js/events.js` is the public section. It loads the next three events
  from today on and renders one card per event.

The DOM and the backend are abstract:

- Each handler is one atomic step, from the page state before it runs to the
  page state after, plus the ordered trace of requests it made (`Effect`).
- Every answer from the outside world is an input (`Remote`, or the `config` and `listing` parameters of the public page). That covers the
  config endpoint, sign-in, sign-out, get-session, upload, insert, the rows the
  `events` table holds, and the public-URL resolver.
- The trace also records when the submit button is disabled and re-enabled.
  That makes the ordering promises of the form handler provable.

Modules, one per concern:

- `Wrappers`: `Option` and `Result`.
- `Strings`: JavaScript `trim()` over the full ECMAScript whitespace set,
  lexicographic comparison of ISO date strings, and `${n}` for non-negative
  integers.
- `EventModel`: the `events` row, with optional columns as `Option<string>`.
  JavaScript truthiness is `Truthy`, so `None` and `Some("")` are both falsy.
- `FileNames`: `safeFileName` and the storage path of `uploadImage`.
- `Selection`: the `.gte / .order / .limit` queries as filter, stable sort and
  prefix over the table's rows.
- `Backend`: request effects, backend outcomes and `ensureClient` memoisation.
- `AdminView`: the admin page record, `showLogin` / `showPanel`, and
  `listEvents` with its line format.
- `AdminAuth`: the login, logout, bootstrap and `onAuthStateChange` handlers.
- `AdminSubmit`: `uploadImage` and the event form's submit handler.
- `PublicPage`: `loadEvents` and `renderEvents` of the public section.

What the scripts do and do not do, as the model has it:

- The scripts only create events: there is no edit, no delete and no edit
  cursor. Every submission is a create and requires an image.
- "Today" in the public query is the UTC calendar date of
  `new Date().toISOString()`. In the model it is the parameter `today`.
- A failed config request leaves the admin client unset, so the next call asks
  again (`Backend.EnsureClientRetriesAfterFailure`). The public page keeps no
  client and asks for the config on every load.

## Model

| member | source | states |
|---|---|---|
| `FileNames.SafeFileNameIsSafe` | assets/js/admin.js:66-70 | The sanitised name holds only `a`-`z`, `0`-`9`, `.` and `-`, never two hyphens in a row, so the final `-+` fold changes nothing. |
| `FileNames.SafeFileNameIsRunEncoding` | assets/js/admin.js:66-70 | The sanitised name is the lower-cased name with every maximal run of characters outside `[a-z0-9.]` (a `-` among them) turned into one `-`. It is proved equal to an independent character-by-character automaton (`FileNames.Emit`). |
| `FileNames.ReplaceMatchesEmit` | assets/js/admin.js:68 | The global greedy replacement of `[^a-z0-9.]+` agrees with the one-character-at-a-time reading on every string. |
| `FileNames.ReplaceDisallowedSafe` | assets/js/admin.js:68 | After the replacement only safe characters remain and no two hyphens are adjacent. A leading allowed character is kept; a leading disallowed run becomes `-`. |
| `FileNames.SafeFileNameIdempotent` | assets/js/admin.js:66-70 | Sanitising a sanitised name returns it unchanged. |
| `FileNames.SafeFileNameKeepsAllowedInOrder` | assets/js/admin.js:67-69 | Apart from the hyphens it inserts, the result is exactly the lower-cased name's `a`-`z`, `0`-`9` and `.` characters, in their original order. |
| `FileNames.SafeFileNameLowercases` | assets/js/admin.js:67-69 | A name made only of ASCII letters, digits and dots is just lower-cased: `A`-`Z` become `a`-`z` and nothing else changes. |
| `FileNames.LowerAsciiPointwise` | assets/js/admin.js:67 | Lower-casing keeps the length and maps each character on its own. |
| `FileNames.UploadPathRoundTrip` | assets/js/admin.js:75 | The path `events/<now>-<safe name>` parses back to the timestamp and the sanitised name. |
| `FileNames.UploadPathInjective` | assets/js/admin.js:75 | Two uploads with different timestamps never share a path, and equal paths mean equal sanitised names. |
| `Strings.TrimIsInfix` | assets/js/admin.js:179-191 | `trim()` returns a contiguous piece of its input with only whitespace cut off on either side, and its result neither starts nor ends with whitespace. |
| `Strings.TrimEmptyIffBlank` | assets/js/admin.js:195 | A trimmed value is empty exactly when the raw value is all whitespace. |
| `Strings.TrimIdempotent` | assets/js/admin.js:179 | Trimming twice is trimming once. |
| `Strings.DecimalRoundTrip` | assets/js/admin.js:75 | The decimal text of `Date.now()` is all digits and reads back as the same number. |
| `Strings.LexLeTransitive` | assets/js/events.js:105-106 | The string order used for `event_date` comparisons is transitive. |
| `Strings.LexLeTotal` | assets/js/events.js:105-106 | Any two date strings are comparable. |
| `Selection.FilterCounts` | assets/js/events.js:105 | The `gte` filter keeps every copy of a matching row and no copy of any other. |
| `Selection.SortPermutes` | assets/js/events.js:106 | Ordering by `event_date` permutes the rows. |
| `Selection.SelectSize` | assets/js/events.js:102-107 | A query answers with min(limit, number of matching rows) rows. |
| `Selection.SelectSound` | assets/js/events.js:105-106 | Every returned row matches the filter, and the rows come in the requested order. |
| `Selection.SelectFromTable` | assets/js/events.js:102-107 | Every returned row is a row of the table, returned at most as often as it is stored. |
| `Selection.SelectIsTopWindow` | assets/js/events.js:105-107 | Every matching row the limit leaves out comes no earlier in the order than any returned row. |
| `Backend.EnsureClient` | assets/js/admin.js:29-43 | A memoised client is returned with no request. Otherwise there is exactly one config request. A client is produced exactly when the config answer is ok (`createClient` taken never to throw); then the memo holds a client built from the config's URL and key. A non-ok answer throws and leaves the memo empty. |
| `Backend.EnsureClientMemoised` | assets/js/admin.js:38 | After a call produced a client, every later call returns that client with no config request, whatever the endpoint would answer. |
| `Backend.EnsureClientRetriesAfterFailure` | assets/js/admin.js:39-41 | After a failed call the next call asks for the config again. |
| `AdminView.ShowLogin` | assets/js/admin.js:45-49 | Login card shown, panel hidden, session line empty; nothing else on the page changes. |
| `AdminView.ShowPanel` | assets/js/admin.js:51-55 | Login card hidden, panel shown, session line `email` or `""`; nothing else changes. |
| `AdminView.ShowLoginPanelLastWins` | assets/js/admin.js:45-55 | Whichever of the two was called last decides the view, and the login card and panel are never shown together. |
| `AdminView.ListLines` | assets/js/admin.js:110-117 | One line per row, in answer order. |
| `AdminView.ListLineSeesOnlyTruthiness` | assets/js/admin.js:112-115 | A list line depends on title, start time and performer only through their truthiness, so `null`, `undefined` and `""` read alike. |
| `AdminView.ListLinePerformerSuffix` | assets/js/admin.js:112-115 | A line is the line of the same row without performer, followed by ` - performer` exactly when the performer is truthy. |
| `AdminView.RefreshList` | assets/js/admin.js:89-126 | Only the memo and the list change, and the list always leaves its initial content. The failure paragraph shows exactly when no client can be had or the query errs. The requests are the client's, then one query for the five latest events, newest first. |
| `AdminView.ListFor` | assets/js/admin.js:100-123 | The list never keeps its markup content, and it shows the failure paragraph exactly when the query threw. |
| `AdminView.RefreshListContent` | assets/js/admin.js:102-116 | An answered query shows the "no events yet" paragraph exactly when no row came back, otherwise one line per row. |
| `AdminView.RefreshListShowsLatestFive` | assets/js/admin.js:94-117 | A shown list has at most five lines, one per returned row, and the rows run newest first. |
| `AdminAuth.Login` | assets/js/admin.js:128-160 | An accepted sign-in shows the panel with the trimmed email, the success status and the list the query answer gives. A rejected one keeps the view and the list and shows the credentials error. A missing client or a thrown sign-in shows the generic error. The trimmed credentials are sent whenever a client exists. The form and the button never change. |
| `AdminAuth.LoginTrace` | assets/js/admin.js:141-154 | The requests of a sign-in are the client's, then the sign-in once a client exists, then the list query only after acceptance. |
| `AdminAuth.LoginFetchesConfigAtMostOnce` | assets/js/admin.js:141-154 | A sign-in asks for the config at most once, even though it calls `ensureClient` twice. |
| `AdminAuth.Logout` | assets/js/admin.js:162-170 | A returned sign-out ends on the login view with the signed-out status. The requests are exactly the client's, then the sign-out once a client exists. If `ensureClient` or `signOut` throws, nothing but the memo changes. List, form, subscription and submit button never change. |
| `AdminAuth.Bootstrap` | assets/js/admin.js:237-267 | Any rejection before the subscription gives the login view with the configuration error and leaves the subscription as it was. Otherwise the page subscribes last and keeps its status, and its requests are exactly the client's, the session lookup, the list query when there is a user, and the subscription. A session with a user shows the panel with that email, sends the list query and shows the list the answer gives; no user shows the login view. |
| `AdminAuth.AuthChange` | assets/js/admin.js:250-258 | Before subscribing nothing happens. `SIGNED_OUT` gives the login view with no request. `SIGNED_IN` with a user gives the panel with that email; with a client it sends the list query and shows the list the answer gives, without one it shows the failure paragraph. On `SIGNED_IN` with a user the requests are exactly the client's plus the list query when a client exists. Every other notification changes nothing. The status, form, subscription and submit button never change. |
| `AdminAuth.LoginKeepsConsistent` | assets/js/admin.js:128-160 | A sign-in keeps the page invariant: exactly one of login card and panel shown, an empty session line on the login view, a client whenever the page is subscribed. |
| `AdminAuth.LogoutKeepsConsistent` | assets/js/admin.js:162-170 | A sign-out keeps the page invariant. |
| `AdminAuth.BootstrapKeepsConsistent` | assets/js/admin.js:237-267 | Start-up keeps the page invariant; in particular it subscribes only once it holds a client. |
| `AdminAuth.BootstrapEstablishesConsistent` | assets/js/admin.js:237-267 | Whatever the page markup shows before start-up, the page start-up leaves behind satisfies the invariant, so the preservation lemmas apply from then on. |
| `AdminAuth.AuthChangeKeepsConsistent` | assets/js/admin.js:250-258 | Every auth notification keeps the page invariant. |
| `AdminAuth.SignOutThenSignInNotifications` | assets/js/admin.js:250-258 | From any view, a `SIGNED_OUT` notification ends on the login view, and a following `SIGNED_IN` with a user ends on the panel with that user's email. |
| `AdminSubmit.UploadImage` | assets/js/admin.js:72-86 | The upload yields a URL exactly when a client exists and the file was stored. The URL is the public URL of `events/<now>-<safe name>`. A storage rejection is a storage error, and the memo is `ensureClient`'s. |
| `AdminSubmit.UploadImageTrace` | assets/js/admin.js:72-86 | The requests are the client's, then the upload to the fresh path in `event-images` with cache control `3600` and `upsert: false`. The public URL is resolved only when the upload stored the file. |
| `AdminSubmit.SecondClientCallIsMemoHit` | assets/js/admin.js:204-205 | After a successful upload, the handler's second `ensureClient` call returns the memoised client with no request and no change. |
| `AdminSubmit.CompleteIffFilled` | assets/js/admin.js:179-198 | A submission passes validation exactly when title and performer are not all whitespace, date and time are non-empty and a file is chosen. The description may be empty. |
| `AdminSubmit.InsertAndRefresh` | assets/js/admin.js:207-224 | The insert of the row built from the trimmed form values and the image URL comes first, and the enable comes last. An accepted insert shows the success status, resets the form, sends the list query and shows the list the answer gives. A rejected one shows the failure status, changes nothing else, and sends nothing after the insert but the enable. |
| `AdminSubmit.Publish` | assets/js/admin.js:203-233 | The button ends enabled. Success status, form reset, the list query and the list the answer gives happen when client, upload and insert all succeed. On any failure the form and list stay as they were and the failure status shows. The view never changes. |
| `AdminSubmit.Submit` | assets/js/admin.js:172-235 | An incomplete form sets the fill-all error with no request and without touching the button. A complete form disables the button first and enables it last. It ends in success (success status, blank form, list query sent, list from its answer) or failure (failure status, form and list untouched) exactly as `Publish` says. |
| `AdminSubmit.SubmitKeepsConsistent` | assets/js/admin.js:172-235 | A submission keeps the page invariant. |
| `AdminSubmit.FailedSubmitSendsNoListQuery` | assets/js/admin.js:203-224 | A complete submission whose client, upload or insert fails never sends the list query: the list is queried only after a successful insert. |
| `AdminSubmit.SubmitTrace` | assets/js/admin.js:200-233 | A row is inserted exactly when the file was stored. Every insert comes right after the upload to the fresh path and the lookup of that path's URL, and carries the trimmed form values with that URL. Only the first and last steps toggle the button. |
| `AdminSubmit.SubmitTraceStored` | assets/js/admin.js:203-220 | With a stored file there is exactly one insert, right after the upload and the URL lookup. |
| `AdminSubmit.SubmitTraceNotStored` | assets/js/admin.js:203-204 | Without a stored file nothing is inserted. |
| `AdminSubmit.SubmitFetchesConfigAtMostOnce` | assets/js/admin.js:204-205 | A submission asks for the config at most once, though up to three steps need the client. |
| `AdminSubmit.InsertStage` | assets/js/admin.js:205-224 | The insert stage starts with the insert and ends with the enable. Between them are only list-refresh requests, and none asks for the config. |
| `PublicPage.RenderCard` | assets/js/events.js:50-79 | A card has an image exactly when `image_url` is truthy, with that URL as source and non-empty alt text (the title when truthy). The badge is `Najava`. The heading is the title or `Dogadjaj u kafani`, the alt text the title or `Dogadjaj`, the meta line `<date> - Pocetak <start time or TBA>`, the performer line `Peva: <performer>` or `Pevac ce biti objavljen`, and the description the description or `Detalji stizu uskoro.`; none of them is empty. |
| `PublicPage.RenderEvents` | assets/js/events.js:41-92 | The list is replaced by exactly one card per row, in answer order. |
| `PublicPage.LoadEvents` | assets/js/events.js:94-124 | A missing config or a query error shows the failure message and leaves the cards. An empty answer shows the "nothing announced" message and leaves the cards. A non-empty answer clears and hides the status and renders the rows. The loading message never survives. Every load requests the config; the query for the next three events follows only a successful config response. |
| `PublicPage.ShownCardsAreNextThree` | assets/js/events.js:100-119 | Rendered cards come from at most three table rows, none dated before today, in ascending date order, one card each in that order. Every upcoming row left out is dated no earlier than any shown one. |
| `PublicPage.NextThreeSound` | assets/js/events.js:102-107 | The public query answers with at most three table rows, none dated before today, in ascending date order. |
| `PublicPage.NextThreeWindow` | assets/js/events.js:105-107 | Every upcoming table row the answer leaves out is dated no earlier than any row it returns. |
| `PublicPage.CardSeesOnlyTruthiness` | assets/js/events.js:52-79 | A card depends on each optional column only through its truthiness. |
| `PublicPage.PerformerLineRoundTrip` | assets/js/events.js:75 | The performer is recovered exactly from the card's performer line: the fallback sentence is never mistaken for a `Peva: ` line. |

## Left out

- DOM: every element the scripts look up is assumed present. The early returns for a missing element, and the script-wide early return when the `supabase` global is undefined, are not modelled.
- Network and backend internals: each answer is an input in `Remote`. A column projection is recorded in the query request but not applied to the rows.
- The backend answering with no error and no `data` is not modelled. An answered query always carries the table's rows.
- Clock: `Date.now()` and the UTC date of `new Date().toISOString()` are the parameters `now` and `today`.
- Date formatting: `toLocaleDateString("sr-RS", …)` is the uninterpreted parameter `formatDate`.
- `FileNames.LowerAscii`: models `toLowerCase` on ASCII only. Non-ASCII characters are left as they are. The real method maps some of them (for example the Kelvin sign to `k`), which can change which characters survive sanitising.
- `Strings.Decimal`: the `${n}` text of a timestamp is its plain decimal digits. JavaScript switches to exponent notation from 10^21 on, which no clock reading reaches.
- Async scheduling: each handler is one atomic step. Two overlapping handlers, and the un-awaited list refresh after a `SIGNED_IN` notification, are not interleaved.
- The transient "Ucitavanje prethodnih objava..." list text and the transient "Prijavljivanje..." / "Objavljujemo dogadjaj..." statuses are overwritten inside the same step. Only the admin form's "publishing" status is kept, as the state in which the upload starts.
- `console.error` logging.
- `eventForm.reset()` is taken to empty every field and drop the file selection.
- `Selection.Sort`: the backend promises no order among rows with equal `event_date`; the model fixes one (table order, a stable sort). The facts stated in terms of dates (order, the top window, rows drawn from the table, the count) hold for any order among ties; the ones that name the answer's rows exactly (`AdminView.RefreshListContent`, `PublicPage.LoadEvents`) assume this choice.
- `Backend.EnsureClient`: `createClient` is taken never to throw. A 2xx config body it would reject (a missing or empty URL or key) counts as `ConfigNotOk`, which gives the same outcome as the throw: no client, the memo left empty, the failure status on the public page.
- `AdminSubmit.Publish`: leaves out the handler's second `ensureClient()` call after the upload. `AdminSubmit.SecondClientCallIsMemoHit` shows that call makes no request and changes nothing.
- Editing, deleting and the edit cursor: they do not exist in the code.

=== FILE: admin_auth.dfy ===
/**
 * The sign-in, sign-out, start-up and auth-notification handlers of
 * assets/js/admin.js, each one atomic step from the view before to the view
 * after, driven by the backend's answers.
 */
module AdminAuth {
  import opened Wrappers
  import opened Strings
  import opened EventModel
  import opened Backend
  import opened AdminView

  const SigningInMsg: string := "Prijavljivanje..."
  const SignInRejectedMsg: string := "Prijava neuspesna. Proverite kredencijale."
  const SignedInMsg: string := "Uspesna prijava."
  const SignInErrorMsg: string := "Doslo je do greske pri prijavi."
  const SignedOutMsg: string := "Odjavljeni ste."
  const ConfigMissingMsg: string := "Konfiguracija nije postavljena. Dodajte SUPABASE promenljive na Vercelu."

  /** The login form's submit handler, with the raw input values. */
  function Login(s: AdminState, emailInput: string, passwordInput: string, remote: Remote, formatDate: string -> string): (r: Step)
    ensures var ready := ClientReady(s.memo, remote.config);
      && (ready && remote.signIn.SignInAccepted? ==>
            && PanelView(r.state, Trim(emailInput))
            && r.state.status == Shown(SignedInMsg, Success)
            && r.state.list == ListFor(remote.listing, formatDate))
      && (ready && remote.signIn.SignInRejected? ==>
            SameView(r.state, s) && r.state.status == Shown(SignInRejectedMsg, Error) && r.state.list == s.list)
      && (!ready || remote.signIn.SignInThrew? ==>
            SameView(r.state, s) && r.state.status == Shown(SignInErrorMsg, Error) && r.state.list == s.list)
    ensures ClientReady(s.memo, remote.config) ==> SignIn(Trim(emailInput), Trim(passwordInput)) in r.effects
    ensures r.state.form == s.form && r.state.submitDisabled == s.submitDisabled && r.state.subscribed == s.subscribed
  {
    var email := Trim(emailInput);
    var password := Trim(passwordInput);
    var c := EnsureClient(s.memo, remote.config);
    var s1 := s.(memo := c.memo, status := Shown(SigningInMsg, Info));
    if c.result.Err? then Step(s1.(status := Shown(SignInErrorMsg, Error)), c.effects)
    else
      var effects := c.effects + [SignIn(email, password)];
      match remote.signIn
      case SignInThrew => Step(s1.(status := Shown(SignInErrorMsg, Error)), effects)
      case SignInRejected => Step(s1.(status := Shown(SignInRejectedMsg, Error)), effects)
      case SignInAccepted =>
        var l := RefreshList(ShowPanel(s1.(status := Shown(SignedInMsg, Success)), Some(email)), remote, formatDate);
        Step(l.state, effects + l.effects)
  }

  /**
   * The logout button's handler. When `ensureClient` or `signOut` rejects,
   * the rejection escapes the handler and the view stays as it was.
   */
  function Logout(s: AdminState, remote: Remote): (r: Step)
    ensures ClientReady(s.memo, remote.config) && remote.signOut.SignOutReturned? ==>
      LoginView(r.state) && r.state.status == Shown(SignedOutMsg, Info) && SignOut in r.effects
    ensures !(ClientReady(s.memo, remote.config) && remote.signOut.SignOutReturned?) ==>
      r.state == s.(memo := r.state.memo)
    ensures ClientReady(s.memo, remote.config) ==> r.effects == EnsureClient(s.memo, remote.config).effects + [SignOut]
    ensures !ClientReady(s.memo, remote.config) ==> r.effects == [FetchConfig]
    ensures r.state.list == s.list && r.state.form == s.form && r.state.subscribed == s.subscribed
    ensures r.state.submitDisabled == s.submitDisabled
  {
    var c := EnsureClient(s.memo, remote.config);
    if c.result.Err? then Step(s.(memo := c.memo), c.effects)
    else
      var effects := c.effects + [SignOut];
      match remote.signOut
      case SignOutThrew => Step(s.(memo := c.memo), effects)
      case SignOutReturned => Step(ShowLogin(s.(memo := c.memo, status := Shown(SignedOutMsg, Info))), effects)
  }

  /** `session && session.user`. */
  predicate HasUser(session: Option<Session>)
  {
    session.Some? && session.value.user.Some?
  }

  /**
   * `bootstrap()`: restore the session on page load and subscribe to auth
   * notifications. Any rejection on the way shows the configuration error
   * on the login view and leaves the subscription as it was.
   */
  function Bootstrap(s: AdminState, remote: Remote, formatDate: string -> string): (r: Step)
    ensures var ok := ClientReady(s.memo, remote.config) && remote.session.SessionFound?;
      && (!ok ==> LoginView(r.state) && r.state.status == Shown(ConfigMissingMsg, Error) && r.state.subscribed == s.subscribed)
      && (ok ==> r.state.subscribed && r.state.status == s.status && |r.effects| > 0 && r.effects[|r.effects| - 1] == SubscribeAuth)
      && (ok && HasUser(remote.session.session) ==>
            && PanelView(r.state, remote.session.session.value.user.value.email.GetOr(""))
            && r.state.list == ListFor(remote.listing, formatDate)
            && SelectRows(EventsTable, AdminColumns, AdminQuery) in r.effects)
      && (ok && !HasUser(remote.session.session) ==> LoginView(r.state) && r.state.list == s.list)
    ensures ClientReady(s.memo, remote.config) && remote.session.SessionFound? ==>
      r.effects == EnsureClient(s.memo, remote.config).effects + [GetSession]
        + (if HasUser(remote.session.session) then [SelectRows(EventsTable, AdminColumns, AdminQuery)] else []) + [SubscribeAuth]
    ensures r.state.form == s.form && r.state.submitDisabled == s.submitDisabled
  {
    var c := EnsureClient(s.memo, remote.config);
    var s1 := s.(memo := c.memo);
    if c.result.Err? then Step(ShowLogin(s1.(status := Shown(ConfigMissingMsg, Error))), c.effects)
    else
      var effects := c.effects + [GetSession];
      match remote.session
      case SessionThrew => Step(ShowLogin(s1.(status := Shown(ConfigMissingMsg, Error))), effects)
      case SessionFound(session) =>
        if HasUser(session) then
          var l := RefreshList(ShowPanel(s1, session.value.user.value.email), remote, formatDate);
          Step(l.state.(subscribed := true), effects + l.effects + [SubscribeAuth])
        else Step(ShowLogin(s1).(subscribed := true), effects + [SubscribeAuth])
  }

  datatype AuthEvent = SignedIn | SignedOut | OtherAuthEvent(name: string)

  /**
   * The `onAuthStateChange` callback, delivered with its event and session.
   * Before `bootstrap` has subscribed nothing is listening.
   */
  function AuthChange(s: AdminState, event: AuthEvent, session: Option<Session>, remote: Remote, formatDate: string -> string): (r: Step)
    ensures !s.subscribed ==> r == Step(s, [])
    ensures s.subscribed && event.SignedOut? ==> r == Step(ShowLogin(s), [])
    ensures s.subscribed && event.SignedIn? && HasUser(session) ==>
      && PanelView(r.state, session.value.user.value.email.GetOr(""))
      && (ClientReady(s.memo, remote.config) ==> r.state.list == ListFor(remote.listing, formatDate) && SelectRows(EventsTable, AdminColumns, AdminQuery) in r.effects)
      && (!ClientReady(s.memo, remote.config) ==> r.state.list == LoadFailed)
      && r.effects == EnsureClient(s.memo, remote.config).effects
           + (if ClientReady(s.memo, remote.config) then [SelectRows(EventsTable, AdminColumns, AdminQuery)] else [])
    ensures s.subscribed && (event.OtherAuthEvent? || (event.SignedIn? && !HasUser(session))) ==> r == Step(s, [])
    ensures r.state.status == s.status && r.state.form == s.form && r.state.subscribed == s.subscribed
    ensures r.state.submitDisabled == s.submitDisabled
  {
    if !s.subscribed then Step(s, [])
    else
      match event
      case SignedOut => Step(ShowLogin(s), [])
      case SignedIn =>
        if HasUser(session) then RefreshList(ShowPanel(s, session.value.user.value.email), remote, formatDate)
        else Step(s, [])
      case OtherAuthEvent(_) => Step(s, [])
  }

  /**
   * The requests of a sign-in: the config request when no client is
   * memoised, the sign-in with the trimmed credentials once a client exists,
   * and the list query only after the sign-in was accepted.
   */
  lemma {:induction false} LoginTrace(s: AdminState, emailInput: string, passwordInput: string, remote: Remote, formatDate: string -> string)
    ensures var e := Login(s, emailInput, passwordInput, remote, formatDate).effects;
      var fetch := EnsureClient(s.memo, remote.config).effects;
      var signIn := SignIn(Trim(emailInput), Trim(passwordInput));
      var ready := ClientReady(s.memo, remote.config);
      && (!ready ==> e == fetch)
      && (ready && !remote.signIn.SignInAccepted? ==> e == fetch + [signIn])
      && (ready && remote.signIn.SignInAccepted? ==> e == fetch + [signIn, SelectRows(EventsTable, AdminColumns, AdminQuery)])
  {
    var c := EnsureClient(s.memo, remote.config);
    if c.result.Ok? && remote.signIn.SignInAccepted? {
      var email := Trim(emailInput);
      var signIn := SignIn(email, Trim(passwordInput));
      var s1 := s.(memo := c.memo, status := Shown(SignedInMsg, Success));
      var l := RefreshList(ShowPanel(s1, Some(email)), remote, formatDate);
      assert l.effects == [SelectRows(EventsTable, AdminColumns, AdminQuery)];
      assert (c.effects + [signIn]) + l.effects == c.effects + [signIn, SelectRows(EventsTable, AdminColumns, AdminQuery)];
    }
  }

  /** A sign-in, accepted or not, never asks for the config more than once. */
  lemma LoginFetchesConfigAtMostOnce(s: AdminState, emailInput: string, passwordInput: string, remote: Remote, formatDate: string -> string)
    ensures ConfigFetches(Login(s, emailInput, passwordInput, remote, formatDate).effects) <= 1
  {
    LoginTrace(s, emailInput, passwordInput, remote, formatDate);
    var fetch := EnsureClient(s.memo, remote.config).effects;
    var signIn := SignIn(Trim(emailInput), Trim(passwordInput));
    var query := SelectRows(EventsTable, AdminColumns, AdminQuery);
    NoFetches([signIn]);
    NoFetches([signIn, query]);
    ConfigFetchesAppend(fetch, [signIn]);
    ConfigFetchesAppend(fetch, [signIn, query]);
  }

  /**
   * On a subscribed page, a `SIGNED_OUT` notification ends on the login
   * view, and a following `SIGNED_IN` with a user ends on the panel.
   */
  lemma SignOutThenSignInNotifications(s: AdminState, user: User, remote: Remote, formatDate: string -> string)
    requires s.subscribed
    ensures LoginView(AuthChange(s, SignedOut, None, remote, formatDate).state)
    ensures var t := AuthChange(s, SignedOut, None, remote, formatDate).state;
      PanelView(AuthChange(t, SignedIn, Some(Session(Some(user))), remote, formatDate).state, user.email.GetOr(""))
  {
  }

  /** Signing in keeps the page invariant. */
  lemma LoginKeepsConsistent(s: AdminState, emailInput: string, passwordInput: string, remote: Remote, formatDate: string -> string)
    requires Consistent(s)
    ensures Consistent(Login(s, emailInput, passwordInput, remote, formatDate).state)
  {
  }

  /** Signing out keeps the page invariant. */
  lemma LogoutKeepsConsistent(s: AdminState, remote: Remote)
    requires Consistent(s)
    ensures Consistent(Logout(s, remote).state)
  {
  }

  /** Start-up keeps the page invariant: it subscribes only with a client in hand. */
  lemma BootstrapKeepsConsistent(s: AdminState, remote: Remote, formatDate: string -> string)
    requires Consistent(s)
    ensures Consistent(Bootstrap(s, remote, formatDate).state)
  {
  }

  /**
   * The base case: whatever the markup shows before start-up, the page
   * `bootstrap()` leaves behind satisfies the invariant, so every later
   * handler starts from a consistent page.
   */
  lemma BootstrapEstablishesConsistent(s: AdminState, remote: Remote, formatDate: string -> string)
    requires !s.subscribed
    ensures Consistent(Bootstrap(s, remote, formatDate).state)
  {
  }

  /** Every auth notification keeps the page invariant. */
  lemma AuthChangeKeepsConsistent(s: AdminState, event: AuthEvent, session: Option<Session>, remote: Remote, formatDate: string -> string)
    requires Consistent(s)
    ensures Consistent(AuthChange(s, event, session, remote, formatDate).state)
  {
  }
}

=== FILE: admin_submit.dfy ===
/**
 * The event form's submit handler of assets/js/admin.js, with the image
 * upload it starts: validate, disable the button, upload, insert, then
 * reset and refresh on success or report the failure, and re-enable the
 * button whatever happened.
 */
module AdminSubmit {
  import opened Wrappers
  import opened Strings
  import opened EventModel
  import opened FileNames
  import opened Backend
  import opened AdminView

  const UploadCacheControl: string := "3600"

  const FillAllMsg: string := "Popunite sva polja i dodajte sliku."
  const PublishingMsg: string := "Objavljujemo dogadjaj..."
  const PublishedMsg: string := "Dogadjaj je objavljen."
  const PublishFailedMsg: string := "Objavljivanje nije uspelo. Proverite pravila i konekciju."

  /** What `uploadImage` returns or throws, the memo it leaves and the requests it made. */
  datatype UploadStep = UploadStep(result: Result<string, Failure>, memo: Option<Client>, effects: seq<Effect>)

  /**
   * `uploadImage(file)` at clock reading `now`: store the file under a fresh
   * path in the image bucket without overwriting, then resolve that path's
   * public URL. A rejected upload throws before any URL is resolved.
   */
  function UploadImage(memo: Option<Client>, remote: Remote, now: nat, file: File): (r: UploadStep)
    ensures r.result.Ok? <==> ClientReady(memo, remote.config) && remote.upload.UploadStored?
    ensures r.result.Ok? ==> r.result.value == remote.publicUrl(UploadPath(now, file.name))
    ensures r.result.Err? && ClientReady(memo, remote.config) ==> r.result.error == StorageError
    ensures r.memo == EnsureClient(memo, remote.config).memo
    ensures ClientReady(memo, remote.config) ==> r.memo.Some?
  {
    var c := EnsureClient(memo, remote.config);
    if c.result.Err? then UploadStep(Err(c.result.error), c.memo, c.effects)
    else
      var path := UploadPath(now, file.name);
      var effects := c.effects + [StorageUpload(Bucket, path, UploadCacheControl, false)];
      match remote.upload
      case UploadRejected => UploadStep(Err(StorageError), c.memo, effects)
      case UploadStored => UploadStep(Ok(remote.publicUrl(path)), c.memo, effects + [ResolvePublicUrl(Bucket, path)])
  }

  /**
   * The requests of `uploadImage`: the config request if the client is not
   * memoised yet, the upload to a fresh path of the image bucket with
   * `upsert: false`, and the public-URL lookup only when the upload stored
   * the file.
   */
  lemma UploadImageTrace(memo: Option<Client>, remote: Remote, now: nat, file: File)
    ensures var e := UploadImage(memo, remote, now, file).effects;
      var path := UploadPath(now, file.name);
      && (!ClientReady(memo, remote.config) ==> e == [FetchConfig])
      && (ClientReady(memo, remote.config) && remote.upload.UploadRejected? ==>
            e == EnsureClient(memo, remote.config).effects + [StorageUpload(Bucket, path, UploadCacheControl, false)])
      && (ClientReady(memo, remote.config) && remote.upload.UploadStored? ==>
            e == EnsureClient(memo, remote.config).effects
              + [StorageUpload(Bucket, path, UploadCacheControl, false), ResolvePublicUrl(Bucket, path)])
  {
  }

  /**
   * The check `!title || !eventDate || !startTime || !performer || !file`
   * rejects: title and performer are trimmed first, the date and time are
   * not, the description may be empty.
   */
  predicate Complete(f: EventForm)
  {
    Trim(f.title) != "" && f.eventDate != "" && f.startTime != "" && Trim(f.performer) != "" && f.image.Some?
  }

  /** The row inserted for form `f` with uploaded image `imageUrl`. */
  function RowFor(f: EventForm, imageUrl: string): NewEvent
  {
    NewEvent(Trim(f.title), Trim(f.description), Trim(f.performer), f.eventDate, f.startTime, imageUrl)
  }

  /** Every backend answer a submission needs goes its way. */
  predicate Publishes(s: AdminState, remote: Remote)
  {
    Complete(s.form) && ClientReady(s.memo, remote.config) && remote.upload.UploadStored? && remote.insert.InsertAccepted?
  }

  /** The end of a submission that threw: failure status, button enabled, form as it was. */
  function Failed(s: AdminState, effects: seq<Effect>): Step
  {
    Step(s.(status := Shown(PublishFailedMsg, Error), submitDisabled := false), effects + [EnableSubmit])
  }

  /**
   * After a successful upload: insert the row built from the form, then on
   * success show the success status, reset the form and refresh the list.
   */
  function InsertAndRefresh(s: AdminState, imageUrl: string, remote: Remote, formatDate: string -> string): (r: Step)
    requires s.memo.Some?
    ensures |r.effects| >= 2 && r.effects[0] == InsertRow(EventsTable, RowFor(s.form, imageUrl))
    ensures r.effects[|r.effects| - 1] == EnableSubmit && !r.state.submitDisabled
    ensures remote.insert.InsertAccepted? ==>
      && r.state.status == Shown(PublishedMsg, Success)
      && r.state.form == BlankForm
      && r.state.list == ListFor(remote.listing, formatDate)
      && SelectRows(EventsTable, AdminColumns, AdminQuery) in r.effects
    ensures remote.insert.InsertRejected? ==>
      && r.state == s.(status := Shown(PublishFailedMsg, Error), submitDisabled := false)
      && r.effects == [InsertRow(EventsTable, RowFor(s.form, imageUrl)), EnableSubmit]
    ensures SameView(r.state, s) && r.state.subscribed == s.subscribed
  {
    var insert := [InsertRow(EventsTable, RowFor(s.form, imageUrl))];
    match remote.insert
    case InsertRejected => Failed(s, insert)
    case InsertAccepted =>
      var l := RefreshList(s.(status := Shown(PublishedMsg, Success), form := BlankForm), remote, formatDate);
      Step(l.state.(submitDisabled := false), insert + l.effects + [EnableSubmit])
  }

  /** A validated submission once the button is disabled: upload, then insert. */
  function Publish(s: AdminState, now: nat, remote: Remote, formatDate: string -> string): (r: Step)
    requires Complete(s.form)
    ensures |r.effects| >= 1 && r.effects[|r.effects| - 1] == EnableSubmit && !r.state.submitDisabled
    ensures Publishes(s, remote) ==>
      && r.state.status == Shown(PublishedMsg, Success)
      && r.state.form == BlankForm
      && r.state.list == ListFor(remote.listing, formatDate)
      && SelectRows(EventsTable, AdminColumns, AdminQuery) in r.effects
    ensures !Publishes(s, remote) ==>
      && r.state.status == Shown(PublishFailedMsg, Error)
      && r.state.form == s.form
      && r.state.list == s.list
    ensures SameView(r.state, s) && r.state.subscribed == s.subscribed
  {
    var up := UploadImage(s.memo, remote, now, s.form.image.value);
    match up.result
    case Err(_) => Failed(s.(memo := up.memo), up.effects)
    case Ok(imageUrl) =>
      var rest := InsertAndRefresh(s.(memo := up.memo), imageUrl, remote, formatDate);
      Step(rest.state, up.effects + rest.effects)
  }

  /**
   * The handler asks `ensureClient` for the client again after the upload;
   * by then the client is memoised, so the call returns it with no request
   * and no change, and `Publish` leaves it out.
   */
  lemma SecondClientCallIsMemoHit(memo: Option<Client>, remote: Remote, now: nat, file: File)
    requires UploadImage(memo, remote, now, file).result.Ok?
    ensures var m := UploadImage(memo, remote, now, file).memo;
      m.Some? && EnsureClient(m, remote.config) == ClientStep(Ok(m.value), m, [])
  {
  }

  /** The page once a validated submission has disabled the button and announced itself. */
  function Publishing(s: AdminState): AdminState
  {
    s.(submitDisabled := true, status := Shown(PublishingMsg, Info))
  }

  /** The event form's submit handler at clock reading `now`. */
  function Submit(s: AdminState, now: nat, remote: Remote, formatDate: string -> string): (r: Step)
    ensures !Complete(s.form) ==> r == Step(s.(status := Shown(FillAllMsg, Error)), [])
    ensures Complete(s.form) ==>
      && |r.effects| >= 2 && r.effects[0] == DisableSubmit && r.effects[|r.effects| - 1] == EnableSubmit
      && !r.state.submitDisabled
    ensures Publishes(s, remote) ==>
      && r.state.status == Shown(PublishedMsg, Success)
      && r.state.form == BlankForm
      && r.state.list == ListFor(remote.listing, formatDate)
      && SelectRows(EventsTable, AdminColumns, AdminQuery) in r.effects
    ensures Complete(s.form) && !Publishes(s, remote) ==>
      && r.state.status == Shown(PublishFailedMsg, Error)
      && r.state.form == s.form
      && r.state.list == s.list
    ensures SameView(r.state, s) && r.state.subscribed == s.subscribed
  {
    if !Complete(s.form) then Step(s.(status := Shown(FillAllMsg, Error)), [])
    else
      var p := Publish(Publishing(s), now, remote, formatDate);
      Step(p.state, [DisableSubmit] + p.effects)
  }

  /** Effects a list refresh or `ensureClient` may add: config requests and queries. */
  predicate Background(e: Effect)
  {
    e.FetchConfig? || e.SelectRows?
  }

  /** Between the insert and the final enable there are only list-refresh requests. */
  lemma {:induction false} InsertAndRefreshTail(s: AdminState, imageUrl: string, remote: Remote, formatDate: string -> string)
    requires s.memo.Some?
    ensures var e := InsertAndRefresh(s, imageUrl, remote, formatDate).effects;
      forall k :: 0 < k < |e| - 1 ==> Background(e[k])
  {
    if remote.insert.InsertAccepted? {
      var s2 := s.(status := Shown(PublishedMsg, Success), form := BlankForm);
      var l := RefreshList(s2, remote, formatDate);
      var insert := [InsertRow(EventsTable, RowFor(s.form, imageUrl))];
      var e := insert + l.effects + [EnableSubmit];
      assert InsertAndRefresh(s, imageUrl, remote, formatDate).effects == e;
      forall k | 0 < k < |e| - 1 ensures Background(e[k]) {
        assert e[k] == l.effects[k - 1];
      }
    }
  }

  /** `Publish` is the upload's requests, then the insert stage's, or the enable after a failed upload. */
  lemma PublishEffects(s: AdminState, now: nat, remote: Remote, formatDate: string -> string)
    requires Complete(s.form)
    ensures var up := UploadImage(s.memo, remote, now, s.form.image.value);
      var e := Publish(s, now, remote, formatDate).effects;
      && (up.result.Err? ==> e == up.effects + [EnableSubmit])
      && (up.result.Ok? ==> up.memo.Some? && e == up.effects + InsertAndRefresh(s.(memo := up.memo), up.result.value, remote, formatDate).effects)
  {
  }

  /** An effect that is not a toggle of the submit button. */
  predicate Untoggled(e: Effect)
  {
    !e.DisableSubmit? && !e.EnableSubmit?
  }

  /** Only the first and the last effect may toggle the button. */
  predicate UntoggledInside(e: seq<Effect>)
  {
    forall i :: 0 < i < |e| - 1 ==> Untoggled(e[i])
  }

  /** `e` inserts a row at position `n` and nowhere else. */
  predicate OnlyInsertAt(e: seq<Effect>, n: nat)
  {
    forall i :: 0 <= i < |e| && i != n ==> !e[i].InsertRow?
  }

  /** The shape of `[DisableSubmit] + upload requests + insert stage`, as plain sequence facts. */
  lemma {:induction false} PublishedTraceShape(e: seq<Effect>, fetch: seq<Effect>, ir: seq<Effect>, upload: Effect, resolve: Effect)
    requires e == [DisableSubmit] + fetch + [upload, resolve] + ir
    requires forall k :: 0 <= k < |fetch| ==> fetch[k] == FetchConfig
    requires Untoggled(upload) && Untoggled(resolve) && !upload.InsertRow? && !resolve.InsertRow?
    requires |ir| >= 2 && ir[0].InsertRow? && ir[|ir| - 1] == EnableSubmit
    requires forall k :: 0 < k < |ir| - 1 ==> Background(ir[k])
    ensures var n := |fetch| + 3;
      && e[n] == ir[0] && e[n - 2] == upload && e[n - 1] == resolve
      && OnlyInsertAt(e, n) && UntoggledInside(e)
  {
    var n := |fetch| + 3;
    forall i | 0 < i < |e| - 1 ensures Untoggled(e[i]) && (i != n ==> !e[i].InsertRow?) {
      if i <= |fetch| {
        assert e[i] == fetch[i - 1];
      } else if i > n {
        assert e[i] == ir[i - n];
      }
    }
  }

  /** A validated submission is the disable followed by `Publish`'s requests. */
  lemma SubmitEffects(s: AdminState, now: nat, remote: Remote, formatDate: string -> string)
    requires Complete(s.form)
    ensures Submit(s, now, remote, formatDate).effects
      == [DisableSubmit] + Publish(Publishing(s), now, remote, formatDate).effects
  {
  }

  /** Without a stored file the submission is the upload's requests between the two toggles. */
  lemma {:induction false} SubmitNotStoredEffects(s: AdminState, now: nat, remote: Remote, formatDate: string -> string)
    requires Complete(s.form)
    requires !(ClientReady(s.memo, remote.config) && remote.upload.UploadStored?)
    ensures Submit(s, now, remote, formatDate).effects
      == [DisableSubmit] + UploadImage(Publishing(s).memo, remote, now, s.form.image.value).effects + [EnableSubmit]
  {
    SubmitEffects(s, now, remote, formatDate);
    PublishEffects(Publishing(s), now, remote, formatDate);
  }

  /** An upload neither toggles the button nor inserts. */
  lemma {:induction false} UploadQuiet(memo: Option<Client>, remote: Remote, now: nat, file: File)
    ensures var e := UploadImage(memo, remote, now, file).effects;
      forall k :: 0 <= k < |e| ==> Untoggled(e[k]) && !e[k].InsertRow?
  {
    UploadImageTrace(memo, remote, now, file);
  }

  /** `[DisableSubmit] + u + [EnableSubmit]` for quiet `u`, as plain sequence facts. */
  lemma {:induction false} BracketedShape(e: seq<Effect>, u: seq<Effect>)
    requires e == [DisableSubmit] + u + [EnableSubmit]
    requires forall k :: 0 <= k < |u| ==> Untoggled(u[k]) && !u[k].InsertRow?
    ensures forall i :: 0 <= i < |e| ==> !e[i].InsertRow?
    ensures UntoggledInside(e)
  {
    forall i | 0 < i < |e| - 1 ensures Untoggled(e[i]) && !e[i].InsertRow? {
      assert e[i] == u[i - 1];
    }
  }

  /** Without a stored file nothing is inserted, and only the outer requests toggle the button. */
  lemma {:induction false} SubmitTraceNotStored(s: AdminState, now: nat, remote: Remote, formatDate: string -> string)
    requires Complete(s.form)
    requires !(ClientReady(s.memo, remote.config) && remote.upload.UploadStored?)
    ensures var e := Submit(s, now, remote, formatDate).effects;
      && (forall i :: 0 <= i < |e| ==> !e[i].InsertRow?)
      && UntoggledInside(e)
  {
    var u := UploadImage(Publishing(s).memo, remote, now, s.form.image.value).effects;
    SubmitNotStoredEffects(s, now, remote, formatDate);
    UploadQuiet(Publishing(s).memo, remote, now, s.form.image.value);
    BracketedShape(Submit(s, now, remote, formatDate).effects, u);
  }

  /** With a stored file the submission is the disable, the upload's requests, then the insert stage. */
  lemma {:induction false} SubmitStoredEffects(s: AdminState, now: nat, remote: Remote, formatDate: string -> string)
    requires Complete(s.form)
    requires ClientReady(s.memo, remote.config) && remote.upload.UploadStored?
    ensures var up := UploadImage(Publishing(s).memo, remote, now, s.form.image.value);
      && up.result.Ok? && up.memo.Some?
      && Submit(s, now, remote, formatDate).effects
        == [DisableSubmit] + up.effects + InsertAndRefresh(Publishing(s).(memo := up.memo), up.result.value, remote, formatDate).effects
  {
    SubmitEffects(s, now, remote, formatDate);
    PublishEffects(Publishing(s), now, remote, formatDate);
  }

  /** A stored upload is the config request if needed, the upload, then the URL lookup. */
  lemma {:induction false} UploadStoredTrace(memo: Option<Client>, remote: Remote, now: nat, file: File)
    requires ClientReady(memo, remote.config) && remote.upload.UploadStored?
    ensures var path := UploadPath(now, file.name);
      var fetch := EnsureClient(memo, remote.config).effects;
      && (forall k :: 0 <= k < |fetch| ==> fetch[k] == FetchConfig)
      && UploadImage(memo, remote, now, file).effects
        == fetch + [StorageUpload(Bucket, path, UploadCacheControl, false), ResolvePublicUrl(Bucket, path)]
  {
    UploadImageTrace(memo, remote, now, file);
  }

  /** The pieces of a submission whose file was stored, in the order they happen. */
  lemma SubmitStoredParts(s: AdminState, now: nat, remote: Remote, formatDate: string -> string)
      returns (fetch: seq<Effect>, ir: seq<Effect>)
    requires Complete(s.form)
    requires ClientReady(s.memo, remote.config) && remote.upload.UploadStored?
    ensures var path := UploadPath(now, s.form.image.value.name);
      && Submit(s, now, remote, formatDate).effects
        == [DisableSubmit] + fetch + [StorageUpload(Bucket, path, UploadCacheControl, false), ResolvePublicUrl(Bucket, path)] + ir
      && |fetch| <= 1 && (forall k :: 0 <= k < |fetch| ==> fetch[k] == FetchConfig)
      && ConfigFetches(ir) == 0
      && |ir| >= 2 && ir[0] == InsertRow(EventsTable, RowFor(s.form, remote.publicUrl(path)))
      && ir[|ir| - 1] == EnableSubmit
      && (forall k :: 0 < k < |ir| - 1 ==> Background(ir[k]))
  {
    var s1 := Publishing(s);
    var f := s.form.image.value;
    var up := UploadImage(s1.memo, remote, now, f);
    SubmitStoredEffects(s, now, remote, formatDate);
    UploadStoredTrace(s1.memo, remote, now, f);
    fetch := EnsureClient(s1.memo, remote.config).effects;
    ir := InsertStage(s1.(memo := up.memo), up.result.value, remote, formatDate);
    var path := UploadPath(now, f.name);
    Splice(Submit(s, now, remote, formatDate).effects, up.effects, fetch,
      [StorageUpload(Bucket, path, UploadCacheControl, false), ResolvePublicUrl(Bucket, path)], ir);
  }

  lemma Splice(e: seq<Effect>, up: seq<Effect>, fetch: seq<Effect>, tail: seq<Effect>, ir: seq<Effect>)
    requires e == [DisableSubmit] + up + ir && up == fetch + tail
    ensures e == [DisableSubmit] + fetch + tail + ir
  {
  }

  /** The insert stage: the insert first, the enable last, only list-refresh requests between, no config request. */
  lemma InsertStage(s: AdminState, imageUrl: string, remote: Remote, formatDate: string -> string) returns (ir: seq<Effect>)
    requires s.memo.Some?
    ensures ir == InsertAndRefresh(s, imageUrl, remote, formatDate).effects
    ensures ConfigFetches(ir) == 0
    ensures |ir| >= 2 && ir[0] == InsertRow(EventsTable, RowFor(s.form, imageUrl))
    ensures ir[|ir| - 1] == EnableSubmit
    ensures forall k :: 0 < k < |ir| - 1 ==> Background(ir[k])
  {
    ir := InsertAndRefresh(s, imageUrl, remote, formatDate).effects;
    InsertAndRefreshTail(s, imageUrl, remote, formatDate);
    InsertAndRefreshQuiet(s, imageUrl, remote, formatDate);
  }

  /** With a stored file the insert, at position `n`, follows the upload and the URL lookup. */
  lemma SubmitTraceStored(s: AdminState, now: nat, remote: Remote, formatDate: string -> string) returns (n: nat)
    requires Complete(s.form)
    requires ClientReady(s.memo, remote.config) && remote.upload.UploadStored?
    ensures var e := Submit(s, now, remote, formatDate).effects;
      var path := UploadPath(now, s.form.image.value.name);
      && UntoggledInside(e)
      && 3 <= n < |e|
      && e[n] == InsertRow(EventsTable, RowFor(s.form, remote.publicUrl(path)))
      && e[n - 2] == StorageUpload(Bucket, path, UploadCacheControl, false)
      && e[n - 1] == ResolvePublicUrl(Bucket, path)
      && OnlyInsertAt(e, n)
  {
    var path := UploadPath(now, s.form.image.value.name);
    var fetch, ir := SubmitStoredParts(s, now, remote, formatDate);
    PublishedTraceShape(Submit(s, now, remote, formatDate).effects, fetch, ir,
      StorageUpload(Bucket, path, UploadCacheControl, false), ResolvePublicUrl(Bucket, path));
    n := |fetch| + 3;
  }

  /** A single insert at `n`, preceded by `upload` and `resolve`, as plain sequence facts. */
  lemma {:induction false} SingleInsertShape(e: seq<Effect>, n: nat, row: NewEvent, upload: Effect, resolve: Effect)
    requires 3 <= n < |e| && e[n] == InsertRow(EventsTable, row) && e[n - 2] == upload && e[n - 1] == resolve
    requires OnlyInsertAt(e, n)
    ensures exists i :: 0 <= i < |e| && e[i].InsertRow?
    ensures forall i :: 0 <= i < |e| && e[i].InsertRow? ==>
      i >= 3 && e[i].row == row && e[i - 2] == upload && e[i - 1] == resolve
  {
    assert e[n].InsertRow?;
  }

  /**
   * Upload comes before insert: a row is inserted exactly when the file was
   * stored; it comes right after the upload to the fresh path and the
   * resolution of that path's URL, and carries the trimmed form values with
   * that URL. The button is disabled before the first request and enabled
   * only after the last.
   */
  lemma SubmitTrace(s: AdminState, now: nat, remote: Remote, formatDate: string -> string)
    requires Complete(s.form)
    ensures var e := Submit(s, now, remote, formatDate).effects;
      var path := UploadPath(now, s.form.image.value.name);
      && ((exists i :: 0 <= i < |e| && e[i].InsertRow?) <==> ClientReady(s.memo, remote.config) && remote.upload.UploadStored?)
      && (forall i :: 0 <= i < |e| && e[i].InsertRow? ==>
            && i >= 3
            && e[i].row == RowFor(s.form, remote.publicUrl(path))
            && e[i - 2] == StorageUpload(Bucket, path, UploadCacheControl, false)
            && e[i - 1] == ResolvePublicUrl(Bucket, path))
      && UntoggledInside(e)
  {
    if ClientReady(s.memo, remote.config) && remote.upload.UploadStored? {
      var path := UploadPath(now, s.form.image.value.name);
      var n := SubmitTraceStored(s, now, remote, formatDate);
      SingleInsertShape(Submit(s, now, remote, formatDate).effects, n, RowFor(s.form, remote.publicUrl(path)),
        StorageUpload(Bucket, path, UploadCacheControl, false), ResolvePublicUrl(Bucket, path));
    } else {
      SubmitTraceNotStored(s, now, remote, formatDate);
    }
  }

  /** The config is fetched at most once per submission, however many calls need the client. */
  lemma SubmitFetchesConfigAtMostOnce(s: AdminState, now: nat, remote: Remote, formatDate: string -> string)
    ensures ConfigFetches(Submit(s, now, remote, formatDate).effects) <= 1
  {
    if Complete(s.form) {
      if ClientReady(s.memo, remote.config) && remote.upload.UploadStored? {
        StoredFetchesConfigAtMostOnce(s, now, remote, formatDate);
      } else {
        var u := UploadImage(Publishing(s).memo, remote, now, s.form.image.value).effects;
        SubmitNotStoredEffects(s, now, remote, formatDate);
        UploadFetchesFirst(Publishing(s).memo, remote, now, s.form.image.value);
        FetchCountShape(Submit(s, now, remote, formatDate).effects, u, [EnableSubmit]);
      }
    }
  }

  lemma StoredFetchesConfigAtMostOnce(s: AdminState, now: nat, remote: Remote, formatDate: string -> string)
    requires Complete(s.form)
    requires ClientReady(s.memo, remote.config) && remote.upload.UploadStored?
    ensures ConfigFetches(Submit(s, now, remote, formatDate).effects) <= 1
  {
    var path := UploadPath(now, s.form.image.value.name);
    var fetch, ir := SubmitStoredParts(s, now, remote, formatDate);
    StoredFetchShape(Submit(s, now, remote, formatDate).effects, fetch, ir,
      StorageUpload(Bucket, path, UploadCacheControl, false), ResolvePublicUrl(Bucket, path));
  }

  lemma StoredFetchShape(e: seq<Effect>, fetch: seq<Effect>, ir: seq<Effect>, upload: Effect, resolve: Effect)
    requires e == [DisableSubmit] + fetch + [upload, resolve] + ir
    requires |fetch| <= 1 && !upload.FetchConfig? && !resolve.FetchConfig? && ConfigFetches(ir) == 0
    ensures ConfigFetches(e) <= 1
  {
    var a := fetch + [upload, resolve];
    assert forall k :: 1 <= k < |a| ==> !a[k].FetchConfig?;
    FetchCountShape(e, a, ir);
  }

  /** Only the first request of an upload may ask for the config. */
  lemma {:induction false} UploadFetchesFirst(memo: Option<Client>, remote: Remote, now: nat, file: File)
    ensures var e := UploadImage(memo, remote, now, file).effects;
      forall k :: 1 <= k < |e| ==> !e[k].FetchConfig?
  {
    UploadImageTrace(memo, remote, now, file);
  }

  /** A trace `[DisableSubmit] + a + b` where only `a`'s first request may ask for the config. */
  lemma FetchCountShape(e: seq<Effect>, a: seq<Effect>, b: seq<Effect>)
    requires e == [DisableSubmit] + a + b
    requires forall k :: 1 <= k < |a| ==> !a[k].FetchConfig?
    requires ConfigFetches(b) == 0
    ensures ConfigFetches(e) <= 1
  {
    NoFetchAfterClient(a);
    assert e == [DisableSubmit] + (a + b);
    ConfigFetchesAppend([DisableSubmit], a + b);
    ConfigFetchesAppend(a, b);
  }

  /** The insert stage never asks for the config: the client is already memoised. */
  lemma InsertAndRefreshQuiet(s: AdminState, imageUrl: string, remote: Remote, formatDate: string -> string)
    requires s.memo.Some?
    ensures ConfigFetches(InsertAndRefresh(s, imageUrl, remote, formatDate).effects) == 0
  {
    NoFetches(InsertAndRefresh(s, imageUrl, remote, formatDate).effects);
  }

  /** The form is refused exactly when a required value is blank or missing. */
  lemma CompleteIffFilled(f: EventForm)
    ensures Complete(f) <==>
      !Blank(f.title) && f.eventDate != "" && f.startTime != "" && !Blank(f.performer) && f.image.Some?
  {
    TrimEmptyIffBlank(f.title);
    TrimEmptyIffBlank(f.performer);
  }

  /** A submission keeps the page invariant. */
  lemma SubmitKeepsConsistent(s: AdminState, now: nat, remote: Remote, formatDate: string -> string)
    requires Consistent(s)
    ensures Consistent(Submit(s, now, remote, formatDate).state)
  {
  }

  /**
   * The list is queried only after a successful insert: a submission whose
   * client, upload or insert fails never sends the list query.
   */
  lemma {:induction false} FailedSubmitSendsNoListQuery(s: AdminState, now: nat, remote: Remote, formatDate: string -> string)
    requires Complete(s.form) && !Publishes(s, remote)
    ensures SelectRows(EventsTable, AdminColumns, AdminQuery) !in Submit(s, now, remote, formatDate).effects
  {
    SubmitEffects(s, now, remote, formatDate);
    PublishEffects(Publishing(s), now, remote, formatDate);
    UploadImageTrace(Publishing(s).memo, remote, now, s.form.image.value);
  }
}

=== FILE: admin_view.dfy ===
/**
 * The admin page of assets/js/admin.js as an abstract view: which card is
 * visible, the session line, the status line, the list of recent events,
 * the event form and its submit button, plus the memoised client.
 */
module AdminView {
  import opened Wrappers
  import opened EventModel
  import opened Selection
  import opened Backend

  datatype Tone = Info | Success | Error

  /** The status line: cleared, or a message with the tone of its class. */
  datatype Status = Cleared | Shown(message: string, tone: Tone)

  /** The content of the recent-events list. `Initial` is whatever the page markup holds. */
  datatype AdminList = Initial | NoEvents | LoadFailed | Lines(lines: seq<string>)

  datatype File = File(name: string)

  /** The raw values of the event form's inputs; `image` is the first selected file. */
  datatype EventForm = EventForm(
    title: string,
    performer: string,
    eventDate: string,
    startTime: string,
    description: string,
    image: Option<File>)

  /** The form after `reset()`. */
  const BlankForm: EventForm := EventForm("", "", "", "", "", None)

  datatype AdminState = AdminState(
    memo: Option<Client>,
    loginVisible: bool,
    panelVisible: bool,
    sessionInfo: string,
    status: Status,
    list: AdminList,
    form: EventForm,
    submitDisabled: bool,
    subscribed: bool)

  /** A handler's end state and the effects it performed, in order. */
  datatype Step = Step(state: AdminState, effects: seq<Effect>)

  predicate SameView(a: AdminState, b: AdminState)
  {
    a.loginVisible == b.loginVisible && a.panelVisible == b.panelVisible && a.sessionInfo == b.sessionInfo
  }

  predicate LoginView(s: AdminState)
  {
    s.loginVisible && !s.panelVisible && s.sessionInfo == ""
  }

  predicate PanelView(s: AdminState, info: string)
  {
    !s.loginVisible && s.panelVisible && s.sessionInfo == info
  }

  /**
   * The page invariant every handler keeps: exactly one of the login card
   * and the panel is shown, the session line is empty on the login view,
   * and the page only subscribes once it has a client.
   */
  predicate Consistent(s: AdminState)
  {
    && s.loginVisible != s.panelVisible
    && (s.loginVisible ==> s.sessionInfo == "")
    && (s.subscribed ==> s.memo.Some?)
  }

  /** `showLogin()`: login card shown, panel hidden, session line emptied. */
  function ShowLogin(s: AdminState): (r: AdminState)
    ensures LoginView(r)
    ensures r.(loginVisible := s.loginVisible, panelVisible := s.panelVisible, sessionInfo := s.sessionInfo) == s
  {
    s.(loginVisible := true, panelVisible := false, sessionInfo := "")
  }

  /** `showPanel(email)`: the reverse, the session line showing `email || ""`. */
  function ShowPanel(s: AdminState, email: Option<string>): (r: AdminState)
    ensures PanelView(r, email.GetOr(""))
    ensures r.(loginVisible := s.loginVisible, panelVisible := s.panelVisible, sessionInfo := s.sessionInfo) == s
  {
    s.(loginVisible := false, panelVisible := true, sessionInfo := email.GetOr(""))
  }

  /** Whichever was called last decides the view; the two never show together. */
  lemma ShowLoginPanelLastWins(s: AdminState, email: Option<string>)
    ensures ShowLogin(ShowPanel(s, email)) == ShowLogin(s)
    ensures ShowPanel(ShowLogin(s), email) == ShowPanel(s, email)
    ensures ShowLogin(s).loginVisible != ShowLogin(s).panelVisible
    ensures ShowPanel(s, email).loginVisible != ShowPanel(s, email).panelVisible
  {
  }

  const AdminColumns: string := "id, title, event_date, performer, start_time"

  /** The admin list: the five latest events, newest first. */
  const AdminQuery: Query := Query(None, Descending, 5)

  /** One `<li>` of the admin list. */
  function ListLine(e: Event, formatDate: string -> string): string
  {
    OrElse(e.title, "Najava") + " - " + formatDate(e.eventDate) + " - Pocetak "
      + OrElse(e.startTime, "TBA") + (if Truthy(e.performer) then " - " + e.performer.value else "")
  }

  function ListLines(rows: seq<Event>, formatDate: string -> string): (r: seq<string>)
    ensures |r| == |rows|
    ensures forall i :: 0 <= i < |rows| ==> r[i] == ListLine(rows[i], formatDate)
  {
    if |rows| == 0 then [] else [ListLine(rows[0], formatDate)] + ListLines(rows[1..], formatDate)
  }

  /** The list line depends on each optional column only through its truthiness. */
  lemma ListLineSeesOnlyTruthiness(a: Event, b: Event, formatDate: string -> string)
    requires Normal(a.title) == Normal(b.title) && Normal(a.startTime) == Normal(b.startTime)
    requires Normal(a.performer) == Normal(b.performer) && a.eventDate == b.eventDate
    ensures ListLine(a, formatDate) == ListLine(b, formatDate)
  {
  }

  /**
   * The performer suffix is the only thing a truthy performer adds: a line
   * is the line of the same row without performer, followed by
   * ` - performer` exactly when the performer is truthy.
   */
  lemma ListLinePerformerSuffix(e: Event, formatDate: string -> string)
    ensures ListLine(e, formatDate)
      == ListLine(e.(performer := None), formatDate) + (if Truthy(e.performer) then " - " + e.performer.value else "")
  {
  }

  /**
   * `listEvents()`: one query for the five latest events; a missing client
   * or a query error shows the failure paragraph, an empty answer the
   * "no events yet" paragraph, otherwise one line per row in answer order.
   * Nothing but the memo and the list changes.
   */
  function RefreshList(s: AdminState, remote: Remote, formatDate: string -> string): (r: Step)
    ensures r.state.(memo := s.memo, list := s.list) == s
    ensures r.state.memo == EnsureClient(s.memo, remote.config).memo
    ensures r.state.list != Initial
    ensures r.state.list == LoadFailed <==> !ClientReady(s.memo, remote.config) || remote.listing.QueryRejected?
    ensures r.effects == EnsureClient(s.memo, remote.config).effects
      + (if ClientReady(s.memo, remote.config) then [SelectRows(EventsTable, AdminColumns, AdminQuery)] else [])
  {
    var c := EnsureClient(s.memo, remote.config);
    if c.result.Err? then Step(s.(memo := c.memo, list := LoadFailed), c.effects)
    else Step(s.(memo := c.memo, list := ListFor(remote.listing, formatDate)),
              c.effects + [SelectRows(EventsTable, AdminColumns, AdminQuery)])
  }

  /** What the list shows once the query has answered or thrown. */
  function ListFor(listing: QueryOutcome, formatDate: string -> string): (r: AdminList)
    ensures r != Initial
    ensures r == LoadFailed <==> listing.QueryRejected?
  {
    match listing
    case QueryRejected => LoadFailed
    case QueryAnswered(table) =>
      var rows := Select(AdminQuery, table);
      if |rows| == 0 then NoEvents else Lines(ListLines(rows, formatDate))
  }

  /**
   * An answered query shows the "no events yet" paragraph exactly when no
   * row came back, and otherwise one line per returned row.
   */
  lemma RefreshListContent(s: AdminState, remote: Remote, formatDate: string -> string)
    requires ClientReady(s.memo, remote.config) && remote.listing.QueryAnswered?
    ensures var rows := Select(AdminQuery, remote.listing.table);
      var list := RefreshList(s, remote, formatDate).state.list;
      && (|rows| == 0 <==> list == NoEvents)
      && (|rows| > 0 ==> list == Lines(ListLines(rows, formatDate)))
  {
  }

  /** A refreshed list shows at most five lines, the newest event first. */
  lemma {:induction false} RefreshListShowsLatestFive(s: AdminState, remote: Remote, formatDate: string -> string)
    requires ClientReady(s.memo, remote.config) && remote.listing.QueryAnswered?
    requires RefreshList(s, remote, formatDate).state.list.Lines?
    ensures var rows := Select(AdminQuery, remote.listing.table);
      var lines := RefreshList(s, remote, formatDate).state.list.lines;
      && |lines| == |rows| <= 5
      && Ordered(Descending, rows)
      && (forall i :: 0 <= i < |lines| ==> lines[i] == ListLine(rows[i], formatDate))
  {
    RefreshListContent(s, remote, formatDate);
    SelectSize(AdminQuery, remote.listing.table);
    SelectSound(AdminQuery, remote.listing.table);
  }
}

=== FILE: backend.dfy ===
/**
 * The remote capabilities both scripts talk to, as opaque effects: the
 * `/api/supabase-config` endpoint, the Supabase client, and the answers the
 * backend may give. Every answer is an input of the step that receives it.
 */
module Backend {
  import opened Wrappers
  import opened EventModel
  import opened Selection

  /** The body of a successful `GET /api/supabase-config`. */
  datatype Config = Config(url: string, anonKey: string)

  /**
   * How the config request ends: a 2xx response with its body, a non-2xx
   * response, or a rejected `fetch` or unreadable body. `createClient` is
   * taken never to throw on a `ConfigOk` body; a 2xx body it would reject
   * (a missing or empty URL or key) counts as `ConfigNotOk`.
   */
  datatype ConfigResponse = ConfigOk(config: Config) | ConfigNotOk | ConfigUnreachable

  /** The handle `createClient(url, anonKey)` returns. */
  datatype Client = Client(url: string, anonKey: string)

  /** The exceptions the handlers catch, by origin. */
  datatype Failure = ConfigurationError | StorageError

  /** One request to the outside world, or a toggle of the admin submit button. */
  datatype Effect =
    | FetchConfig
    | SignIn(email: string, password: string)
    | SignOut
    | GetSession
    | SubscribeAuth
    | StorageUpload(bucket: string, path: string, cacheControl: string, upsert: bool)
    | ResolvePublicUrl(bucket: string, path: string)
    | InsertRow(table: string, row: NewEvent)
    | SelectRows(table: string, columns: string, query: Query)
    | DisableSubmit
    | EnableSubmit

  /** How many times `e` asks for the config. */
  function ConfigFetches(e: seq<Effect>): nat
  {
    if |e| == 0 then 0 else (if e[0].FetchConfig? then 1 else 0) + ConfigFetches(e[1..])
  }

  lemma {:induction false} ConfigFetchesAppend(a: seq<Effect>, b: seq<Effect>)
    ensures ConfigFetches(a + b) == ConfigFetches(a) + ConfigFetches(b)
  {
    if |a| == 0 {
      assert a + b == b;
    } else {
      assert (a + b)[1..] == a[1..] + b;
      ConfigFetchesAppend(a[1..], b);
    }
  }

  /** Requests other than the config request do not count towards `ConfigFetches`. */
  lemma {:induction false} NoFetchAfterClient(e: seq<Effect>)
    requires |e| > 0 ==> forall k :: 1 <= k < |e| ==> !e[k].FetchConfig?
    ensures ConfigFetches(e) <= 1
  {
    if |e| > 0 {
      NoFetches(e[1..]);
    }
  }

  lemma {:induction false} NoFetches(e: seq<Effect>)
    requires forall k :: 0 <= k < |e| ==> !e[k].FetchConfig?
    ensures ConfigFetches(e) == 0
  {
    if |e| > 0 {
      NoFetches(e[1..]);
    }
  }

  /** `ensureClient` will produce a client: one is memoised, or the config request succeeds. */
  predicate ClientReady(memo: Option<Client>, response: ConfigResponse)
  {
    memo.Some? || response.ConfigOk?
  }

  /** How `signInWithPassword` ends: no error, an `error` in the answer, or a rejection. */
  datatype SignInOutcome = SignInAccepted | SignInRejected | SignInThrew

  /** How `signOut` ends; an error in its answer is ignored, so only a rejection differs. */
  datatype SignOutOutcome = SignOutReturned | SignOutThrew

  datatype User = User(email: Option<string>)
  datatype Session = Session(user: Option<User>)

  /** The `data.session` of `getSession()` (`None` for `null`), or a rejection. */
  datatype SessionOutcome = SessionFound(session: Option<Session>) | SessionThrew

  datatype UploadOutcome = UploadStored | UploadRejected
  datatype InsertOutcome = InsertAccepted | InsertRejected

  /** A query is answered from the rows the table holds, or comes back with an `error`. */
  datatype QueryOutcome = QueryAnswered(table: seq<Event>) | QueryRejected

  /**
   * The answers the outside world gives, during one handler, to each kind of
   * request; `publicUrl` is `getPublicUrl` on the image bucket, a function of
   * the object path.
   */
  datatype Remote = Remote(
    config: ConfigResponse,
    signIn: SignInOutcome,
    signOut: SignOutOutcome,
    session: SessionOutcome,
    upload: UploadOutcome,
    insert: InsertOutcome,
    listing: QueryOutcome,
    publicUrl: string -> string)

  /** What `ensureClient` hands back, the memo it leaves, and the requests it made. */
  datatype ClientStep = ClientStep(result: Result<Client, Failure>, memo: Option<Client>, effects: seq<Effect>)

  /**
   * `ensureClient()`: the memoised client when there is one, otherwise one
   * config request, after which the memo holds a client built from the
   * config, or the call throws and the memo stays empty.
   */
  function EnsureClient(memo: Option<Client>, response: ConfigResponse): (r: ClientStep)
    ensures memo.Some? ==> r == ClientStep(Ok(memo.value), memo, [])
    ensures memo.None? ==> r.effects == [FetchConfig]
    ensures memo.None? ==> (r.result.Ok? <==> response.ConfigOk?)
    ensures r.result.Ok? ==> r.memo == Some(r.result.value)
    ensures r.result.Err? ==> r.memo.None? && r.result.error == ConfigurationError
    ensures memo.None? && response.ConfigOk? ==> r.result.value == Client(response.config.url, response.config.anonKey)
  {
    match memo
    case Some(c) => ClientStep(Ok(c), memo, [])
    case None =>
      match response
      case ConfigOk(config) =>
        var c := Client(config.url, config.anonKey);
        ClientStep(Ok(c), Some(c), [FetchConfig])
      case _ => ClientStep(Err(ConfigurationError), None, [FetchConfig])
  }

  /**
   * Once a call has produced a client, every later call returns that same
   * client without asking for the config again, whatever the endpoint
   * would now answer.
   */
  lemma EnsureClientMemoised(memo: Option<Client>, first: ConfigResponse, later: ConfigResponse)
    requires EnsureClient(memo, first).result.Ok?
    ensures var s := EnsureClient(memo, first);
      EnsureClient(s.memo, later) == ClientStep(s.result, s.memo, [])
  {
  }

  /** A failed call leaves nothing behind: the next call asks for the config again. */
  lemma EnsureClientRetriesAfterFailure(memo: Option<Client>, first: ConfigResponse, later: ConfigResponse)
    requires EnsureClient(memo, first).result.Err?
    ensures EnsureClient(EnsureClient(memo, first).memo, later).effects == [FetchConfig]
  {
  }
}

=== FILE: events.dfy ===
/** The `events` row and the JavaScript truthiness the scripts apply to its columns. */
module EventModel {
  import opened Wrappers

  /** An optional text column: `None` is `null`/`undefined`. */
  type Text = Option<string>

  /** `value` in a boolean position: `null`, `undefined` and `""` are all falsy. */
  predicate Truthy(t: Text)
  {
    t.Some? && t.value != ""
  }

  /** `value || fallback` for a text column. */
  function OrElse(t: Text, fallback: string): (r: string)
    ensures Truthy(t) ==> r == t.value
    ensures !Truthy(t) ==> r == fallback
  {
    if Truthy(t) then t.value else fallback
  }

  /** A text column as truthiness sees it: `""` folded into `None`. */
  function Normal(t: Text): (r: Text)
    ensures Truthy(r) == Truthy(t) && (r.Some? ==> r == t)
  {
    if Truthy(t) then t else None
  }

  /**
   * A stored row of the `events` table. `eventDate` is an ISO 8601 date
   * string (`event_date`), compared as text.
   */
  datatype Event = Event(
    id: string,
    title: Text,
    description: Text,
    performer: Text,
    eventDate: string,
    startTime: Text,
    imageUrl: Text)

  /** The object the admin form inserts: every column a plain string. */
  datatype NewEvent = NewEvent(
    title: string,
    description: string,
    performer: string,
    eventDate: string,
    startTime: string,
    imageUrl: string)

  const EventsTable: string := "events"
}

=== FILE: filenames.dfy ===
/**
 * `safeFileName` and the storage path `uploadImage` builds from it
 * (assets/js/admin.js). `safeFileName` lower-cases its input, replaces every
 * maximal run of characters outside `[a-z0-9.]` by one `-`, then folds runs
 * of `-` into one `-`.
 */
module FileNames {
  import opened Wrappers
  import opened Strings

  /** The characters `[a-z0-9.]` the first replacement keeps. */
  predicate Allowed(c: char)
  {
    ('a' <= c <= 'z') || ('0' <= c <= '9') || c == '.'
  }

  /** The output alphabet of `safeFileName`. */
  predicate SafeChar(c: char)
  {
    Allowed(c) || c == '-'
  }

  predicate NoDoubleHyphen(s: string)
  {
    forall i :: 0 <= i < |s| - 1 ==> !(s[i] == '-' && s[i + 1] == '-')
  }

  /** A string `safeFileName` can produce: safe alphabet, no `--`. */
  predicate SafeText(s: string)
  {
    (forall i :: 0 <= i < |s| ==> SafeChar(s[i])) && NoDoubleHyphen(s)
  }

  predicate IsAsciiUpper(c: char)
  {
    'A' <= c <= 'Z'
  }

  /** `toLowerCase` restricted to ASCII. */
  function LowerChar(c: char): (r: char)
    ensures IsAsciiUpper(c) ==> r as int == c as int + 32
    ensures !IsAsciiUpper(c) ==> r == c
    ensures Allowed(r) <==> Allowed(c) || IsAsciiUpper(c)
  {
    if IsAsciiUpper(c) then (c as int + 32) as char else c
  }

  function LowerAscii(s: string): string
  {
    if |s| == 0 then [] else [LowerChar(s[0])] + LowerAscii(s[1..])
  }

  /** Lower-casing maps each character on its own. */
  lemma {:induction false} LowerAsciiPointwise(s: string)
    ensures |LowerAscii(s)| == |s|
    ensures forall i :: 0 <= i < |s| ==> LowerAscii(s)[i] == LowerChar(s[i])
  {
    if |s| > 0 {
      LowerAsciiPointwise(s[1..]);
    }
  }

  /** What is left of `s` once its leading run of disallowed characters is skipped. */
  function DropDisallowed(s: string): (r: string)
    ensures |r| <= |s| && r == s[|s| - |r|..]
    ensures |r| > 0 ==> Allowed(r[0])
  {
    if |s| > 0 && !Allowed(s[0]) then DropDisallowed(s[1..]) else s
  }

  /**
   * `.replace(/[^a-z0-9.]+/g, "-")`: a global greedy scan that replaces each
   * maximal run of disallowed characters with a single `-`.
   */
  function ReplaceDisallowed(s: string): string
    decreases |s|
  {
    if |s| == 0 then []
    else if Allowed(s[0]) then [s[0]] + ReplaceDisallowed(s[1..])
    else "-" + ReplaceDisallowed(DropDisallowed(s[1..]))
  }

  /**
   * The replacement leaves only safe characters and never two hyphens in a
   * row: a run becomes one `-` and the next character is allowed.
   */
  lemma {:induction false} ReplaceDisallowedSafe(s: string)
    ensures var r := ReplaceDisallowed(s);
      && SafeText(r)
      && (|s| > 0 && Allowed(s[0]) ==> |r| > 0 && r[0] == s[0])
      && (|s| > 0 && !Allowed(s[0]) ==> |r| > 0 && r[0] == '-')
    decreases |s|
  {
    if |s| > 0 {
      if Allowed(s[0]) {
        ReplaceDisallowedSafe(s[1..]);
      } else {
        ReplaceDisallowedSafe(DropDisallowed(s[1..]));
      }
    }
  }

  function DropHyphens(s: string): (r: string)
    ensures |r| <= |s| && r == s[|s| - |r|..]
    ensures |r| > 0 ==> r[0] != '-'
  {
    if |s| > 0 && s[0] == '-' then DropHyphens(s[1..]) else s
  }

  /** `.replace(/-+/g, "-")`: each maximal run of `-` becomes one `-`. */
  function CollapseHyphens(s: string): (r: string)
    decreases |s|
  {
    if |s| == 0 then []
    else if s[0] == '-' then "-" + CollapseHyphens(DropHyphens(s[1..]))
    else [s[0]] + CollapseHyphens(s[1..])
  }

  /** `safeFileName(name)`. */
  function SafeFileName(name: string): string
  {
    CollapseHyphens(ReplaceDisallowed(LowerAscii(name)))
  }

  /**
   * The output of `safeFileName` holds only `a`-`z`, `0`-`9`, `.` and `-`,
   * and never two hyphens in a row: the final fold has nothing left to do.
   */
  lemma {:induction false} SafeFileNameIsSafe(name: string)
    ensures SafeText(SafeFileName(name))
    ensures SafeFileName(name) == ReplaceDisallowed(LowerAscii(name))
  {
    ReplaceDisallowedSafe(LowerAscii(name));
    CollapseHyphensOnSafeText(ReplaceDisallowed(LowerAscii(name)));
  }

  /**
   * Reference reading of the replacement, one character at a time: an
   * allowed character is copied, the first disallowed character of a run
   * emits `-`, the rest of the run emits nothing. `inRun` says whether the
   * previous character was disallowed.
   */
  function Emit(inRun: bool, s: string): string
    decreases |s|
  {
    if |s| == 0 then []
    else if Allowed(s[0]) then [s[0]] + Emit(false, s[1..])
    else if inRun then Emit(true, s[1..])
    else "-" + Emit(true, s[1..])
  }

  /** The characters of `s` the sanitiser keeps, in order. */
  function KeepAllowed(s: string): string
  {
    if |s| == 0 then [] else (if Allowed(s[0]) then [s[0]] else []) + KeepAllowed(s[1..])
  }

  function RemoveHyphens(s: string): string
  {
    if |s| == 0 then [] else (if s[0] == '-' then [] else [s[0]]) + RemoveHyphens(s[1..])
  }

  lemma {:induction false} CollapseHyphensOnSafeText(s: string)
    requires NoDoubleHyphen(s)
    ensures CollapseHyphens(s) == s
    decreases |s|
  {
    if |s| > 0 {
      assert NoDoubleHyphen(s[1..]);
      if s[0] == '-' {
        assert |s| > 1 ==> s[1] != '-';
        assert DropHyphens(s[1..]) == s[1..];
      }
      CollapseHyphensOnSafeText(s[1..]);
    }
  }

  lemma {:induction false} EmitInRun(s: string)
    ensures Emit(true, s) == Emit(false, DropDisallowed(s))
  {
    if |s| > 0 && !Allowed(s[0]) {
      EmitInRun(s[1..]);
    }
  }

  /** The regular-expression scan agrees with the character-by-character reading. */
  lemma {:induction false} ReplaceMatchesEmit(s: string)
    ensures ReplaceDisallowed(s) == Emit(false, s)
    decreases |s|
  {
    if |s| > 0 {
      if Allowed(s[0]) {
        ReplaceMatchesEmit(s[1..]);
      } else {
        ReplaceMatchesEmit(DropDisallowed(s[1..]));
        EmitInRun(s[1..]);
      }
    }
  }

  /**
   * `safeFileName` is the character-by-character reading of the lower-cased
   * name: every maximal run of characters outside `[a-z0-9.]` (a `-` among
   * them) becomes exactly one `-`, everything else is copied.
   */
  lemma {:induction false} SafeFileNameIsRunEncoding(name: string)
    ensures SafeFileName(name) == Emit(false, LowerAscii(name))
  {
    SafeFileNameIsSafe(name);
    ReplaceMatchesEmit(LowerAscii(name));
  }

  lemma {:induction false} EmitKeepsAllowed(inRun: bool, s: string)
    ensures RemoveHyphens(Emit(inRun, s)) == KeepAllowed(s)
    decreases |s|
  {
    if |s| > 0 {
      EmitKeepsAllowed(!Allowed(s[0]), s[1..]);
      if Allowed(s[0]) {
        assert Emit(inRun, s) == [s[0]] + Emit(false, s[1..]);
        RemoveHyphensAppend([s[0]], Emit(false, s[1..]));
      } else if !inRun {
        RemoveHyphensAppend("-", Emit(true, s[1..]));
      }
    }
  }

  lemma {:induction false} RemoveHyphensAppend(a: string, b: string)
    ensures RemoveHyphens(a + b) == RemoveHyphens(a) + RemoveHyphens(b)
  {
    if |a| == 0 {
      assert a + b == b;
    } else {
      assert (a + b)[1..] == a[1..] + b;
      RemoveHyphensAppend(a[1..], b);
    }
  }

  /**
   * Apart from the hyphens it inserts, `safeFileName` keeps exactly the
   * lower-cased name's `a`-`z`, `0`-`9` and `.` characters, in their order.
   */
  lemma {:induction false} SafeFileNameKeepsAllowedInOrder(name: string)
    ensures RemoveHyphens(SafeFileName(name)) == KeepAllowed(LowerAscii(name))
  {
    SafeFileNameIsRunEncoding(name);
    EmitKeepsAllowed(false, LowerAscii(name));
  }

  lemma {:induction false} ReplaceOnSafeText(s: string)
    requires SafeText(s)
    ensures ReplaceDisallowed(s) == s
    decreases |s|
  {
    if |s| > 0 {
      assert SafeText(s[1..]);
      if !Allowed(s[0]) {
        assert |s| > 1 ==> Allowed(s[1]);
        assert DropDisallowed(s[1..]) == s[1..];
      }
      ReplaceOnSafeText(s[1..]);
    }
  }

  /** Sanitising an already sanitised name changes nothing. */
  lemma SafeFileNameIdempotent(name: string)
    ensures SafeFileName(SafeFileName(name)) == SafeFileName(name)
  {
    var s := SafeFileName(name);
    SafeFileNameIsSafe(name);
    LowerAsciiPointwise(s);
    assert forall i :: 0 <= i < |s| ==> !IsAsciiUpper(s[i]) && LowerAscii(s)[i] == s[i];
    assert LowerAscii(s) == s;
    ReplaceOnSafeText(s);
    CollapseHyphensOnSafeText(s);
  }

  /**
   * A name made only of ASCII letters, digits and dots is just lower-cased:
   * `A`-`Z` become `a`-`z`, nothing else moves.
   */
  lemma {:induction false} SafeFileNameLowercases(name: string)
    requires forall i :: 0 <= i < |name| ==> Allowed(name[i]) || IsAsciiUpper(name[i])
    ensures SafeFileName(name) == LowerAscii(name)
  {
    var l := LowerAscii(name);
    LowerAsciiPointwise(name);
    assert forall i :: 0 <= i < |l| ==> Allowed(l[i]);
    assert SafeText(l);
    ReplaceOnSafeText(l);
    CollapseHyphensOnSafeText(l);
  }

  /** The storage bucket the admin uploads event images to. */
  const Bucket: string := "event-images"
  const PathPrefix: string := "events/"

  /** `events/${Date.now()}-${safeFileName(file.name)}`, `now` standing for the clock. */
  function UploadPath(now: nat, fileName: string): string
  {
    PathPrefix + (Decimal(now) + "-" + SafeFileName(fileName))
  }

  /** The index of the first `c` in `s`, or `|s|` when there is none. */
  function IndexOf(s: string, c: char): (k: nat)
    ensures k <= |s|
    ensures forall j :: 0 <= j < k ==> s[j] != c
    ensures k < |s| ==> s[k] == c
  {
    if |s| == 0 || s[0] == c then 0 else 1 + IndexOf(s[1..], c)
  }

  /** Splits an upload path back into its timestamp and sanitised name. */
  function ParseUploadPath(p: string): Option<(nat, string)>
  {
    if |p| < |PathPrefix| || p[..|PathPrefix|] != PathPrefix then None
    else ParseStamped(p[|PathPrefix|..])
  }

  /** Splits `digits-name` at its first `-`. */
  function ParseStamped(rest: string): Option<(nat, string)>
  {
    var k := IndexOf(rest, '-');
    if k == 0 || k == |rest| || !AllDigits(rest[..k]) then None
    else Some((ParseDecimal(rest[..k]), rest[k + 1..]))
  }

  /** The upload path determines the timestamp and the sanitised name it was built from. */
  lemma UploadPathRoundTrip(now: nat, fileName: string)
    ensures ParseUploadPath(UploadPath(now, fileName)) == Some((now, SafeFileName(fileName)))
  {
    DecimalRoundTrip(now);
    DecimalDigits(now);
    StripPrefix(Decimal(now) + "-" + SafeFileName(fileName));
    ParseStampedJoined(Decimal(now), SafeFileName(fileName));
  }

  /** Behind the path prefix, parsing is splitting at the first `-`. */
  lemma {:induction false} StripPrefix(rest: string)
    ensures ParseUploadPath(PathPrefix + rest) == ParseStamped(rest)
  {
    assert (PathPrefix + rest)[..|PathPrefix|] == PathPrefix;
    assert (PathPrefix + rest)[|PathPrefix|..] == rest;
  }

  /** A non-empty digit string, a `-` and any tail split back into the number and the tail. */
  lemma ParseStampedJoined(d: string, name: string)
    requires |d| > 0 && AllDigits(d)
    ensures ParseStamped(d + "-" + name) == Some((ParseDecimal(d), name))
  {
    var rest := d + "-" + name;
    assert forall j :: 0 <= j < |d| ==> rest[j] != '-' by {
      forall j | 0 <= j < |d| ensures rest[j] != '-' {
        assert rest[j] == d[j] && IsDigit(d[j]);
      }
    }
    IndexOfFirst(rest, '-', |d|);
    assert rest[..|d|] == d;
    assert rest[|d| + 1..] == name;
  }

  lemma IndexOfFirst(s: string, c: char, k: nat)
    requires k < |s| && s[k] == c
    requires forall j :: 0 <= j < k ==> s[j] != c
    ensures IndexOf(s, c) == k
  {
  }

  /** Two uploads at different instants never share a path. */
  lemma UploadPathInjective(t1: nat, n1: string, t2: nat, n2: string)
    requires UploadPath(t1, n1) == UploadPath(t2, n2)
    ensures t1 == t2 && SafeFileName(n1) == SafeFileName(n2)
  {
    UploadPathRoundTrip(t1, n1);
    UploadPathRoundTrip(t2, n2);
  }
}

=== FILE: public_page.dfy ===
/**
 * The public events section of assets/js/events.js: on page load it asks for
 * the backend config, builds a fresh client, queries the next three events
 * from today on and renders one card per row, with a status line for the
 * loading, empty and failure cases.
 */
module PublicPage {
  import opened Wrappers
  import opened Strings
  import opened EventModel
  import opened Selection
  import opened Backend

  const LoadingMsg: string := "Ucitavanje dogadjaja..."
  const NoUpcomingMsg: string := "Trenutno nema najavljenih dogadjaja."
  const LoadFailedMsg: string := "Nije moguce dohvatiti najave. Proverite podesavanja Supabase naloga."

  const Badge: string := "Najava"
  const ImageAltFallback: string := "Dogadjaj"
  const HeadingFallback: string := "Dogadjaj u kafani"
  const StartTimeFallback: string := "TBA"
  const PerformerPrefix: string := "Peva: "
  const PerformerFallback: string := "Pevac ce biti objavljen"
  const DescriptionFallback: string := "Detalji stizu uskoro."

  const PublicColumns: string := "id, title, description, performer, event_date, start_time, image_url"

  /** The upcoming events: from `today` on, soonest first, at most three. */
  function PublicQuery(today: string): Query
  {
    Query(Some(today), Ascending, 3)
  }

  /** The status paragraph: its text and whether the `d-none` class is off. */
  datatype StatusLine = StatusLine(text: string, visible: bool)

  /** `setStatus(message)`. */
  function SetStatus(message: string): StatusLine
  {
    StatusLine(message, true)
  }

  /** `clearStatus()`. */
  const Cleared: StatusLine := StatusLine("", false)

  datatype Image = Image(src: string, alt: string)

  /** One `event-card`: the optional image, the badge and the four text lines of its body. */
  datatype Card = Card(
    image: Option<Image>,
    badge: string,
    heading: string,
    meta: string,
    performer: string,
    description: string)

  datatype Page = Page(status: StatusLine, cards: seq<Card>)

  /** What `loadEvents` did to the page and which requests it made. */
  datatype LoadStep = LoadStep(page: Page, effects: seq<Effect>)

  /**
   * The card `renderEvents` builds for one row. Every text line is
   * non-empty: a truthy column is shown, a falsy one gives way to its
   * fallback.
   */
  function RenderCard(e: Event, formatDate: string -> string): (r: Card)
    ensures r.image.Some? <==> Truthy(e.imageUrl)
    ensures r.image.Some? ==> r.image.value.src == e.imageUrl.value && r.image.value.alt != ""
    ensures r.badge == Badge && r.heading != "" && r.performer != "" && r.description != ""
    ensures Truthy(e.title) ==> r.heading == e.title.value && (r.image.Some? ==> r.image.value.alt == e.title.value)
    ensures r.heading == OrElse(e.title, HeadingFallback)
    ensures r.image.Some? ==> r.image.value.alt == OrElse(e.title, ImageAltFallback)
    ensures r.meta == formatDate(e.eventDate) + " - Pocetak " + OrElse(e.startTime, StartTimeFallback)
    ensures r.performer == (if Truthy(e.performer) then PerformerPrefix + e.performer.value else PerformerFallback)
    ensures r.description == OrElse(e.description, DescriptionFallback)
  {
    Card(
      if Truthy(e.imageUrl) then Some(Image(e.imageUrl.value, OrElse(e.title, ImageAltFallback))) else None,
      Badge,
      OrElse(e.title, HeadingFallback),
      formatDate(e.eventDate) + " - Pocetak " + OrElse(e.startTime, StartTimeFallback),
      if Truthy(e.performer) then PerformerPrefix + e.performer.value else PerformerFallback,
      OrElse(e.description, DescriptionFallback))
  }

  /** `renderEvents(events)`: the list emptied, then one card per row in answer order. */
  function RenderEvents(rows: seq<Event>, formatDate: string -> string): (r: seq<Card>)
    ensures |r| == |rows|
    ensures forall i :: 0 <= i < |rows| ==> r[i] == RenderCard(rows[i], formatDate)
  {
    if |rows| == 0 then [] else [RenderCard(rows[0], formatDate)] + RenderEvents(rows[1..], formatDate)
  }

  /**
   * `loadEvents()` on a page in state `page`, the clock's UTC date being
   * `today`. Every path overwrites the loading message: a missing config or a
   * query error shows the failure message, an empty answer the "nothing
   * announced" message, and otherwise the status is cleared and the cards
   * replaced. The config is fetched on every load; no client is kept.
   */
  function LoadEvents(page: Page, today: string, config: ConfigResponse, listing: QueryOutcome, formatDate: string -> string): (r: LoadStep)
    ensures !config.ConfigOk? ==> r == LoadStep(Page(SetStatus(LoadFailedMsg), page.cards), [FetchConfig])
    ensures config.ConfigOk? ==> r.effects == [FetchConfig, SelectRows(EventsTable, PublicColumns, PublicQuery(today))]
    ensures config.ConfigOk? && listing.QueryRejected? ==> r.page == Page(SetStatus(LoadFailedMsg), page.cards)
    ensures var rows := if listing.QueryAnswered? then Select(PublicQuery(today), listing.table) else [];
      && (r.page.status == Cleared <==> config.ConfigOk? && listing.QueryAnswered? && |rows| > 0)
      && (r.page.status == Cleared ==> r.page.cards == RenderEvents(rows, formatDate))
      && (config.ConfigOk? && listing.QueryAnswered? && |rows| == 0 ==> r.page == Page(SetStatus(NoUpcomingMsg), page.cards))
    ensures r.page.status != Cleared ==> r.page.status.visible && r.page.cards == page.cards
    ensures r.page.status.text != LoadingMsg
  {
    var loading := Page(SetStatus(LoadingMsg), page.cards);
    if !config.ConfigOk? then LoadStep(loading.(status := SetStatus(LoadFailedMsg)), [FetchConfig])
    else
      var effects := [FetchConfig, SelectRows(EventsTable, PublicColumns, PublicQuery(today))];
      match listing
      case QueryRejected => LoadStep(loading.(status := SetStatus(LoadFailedMsg)), effects)
      case QueryAnswered(table) =>
        var rows := Select(PublicQuery(today), table);
        if |rows| == 0 then LoadStep(loading.(status := SetStatus(NoUpcomingMsg)), effects)
        else LoadStep(Page(Cleared, RenderEvents(rows, formatDate)), effects)
  }

  /** The rows the public query answers with, for an answered query. */
  function Upcoming(today: string, listing: QueryOutcome): seq<Event>
  {
    if listing.QueryAnswered? then Select(PublicQuery(today), listing.table) else []
  }

  /**
   * The answer to the public query holds at most three rows of the table,
   * none dated before `today`, in ascending date order.
   */
  lemma NextThreeSound(today: string, table: seq<Event>)
    ensures var rows := Select(PublicQuery(today), table);
      && |rows| <= 3
      && (forall i :: 0 <= i < |rows| ==> LexLe(today, rows[i].eventDate))
      && (forall i, j :: 0 <= i < j < |rows| ==> LexLe(rows[i].eventDate, rows[j].eventDate))
      && multiset(rows) <= multiset(table)
  {
    var q := PublicQuery(today);
    SelectSize(q, table);
    SelectSound(q, table);
    SelectFromTable(q, table);
  }

  /** Every upcoming row the answer leaves out is dated no earlier than any row it returns. */
  lemma NextThreeWindow(today: string, table: seq<Event>)
    ensures var rows := Select(PublicQuery(today), table);
      forall e, i :: e in multiset(table) && LexLe(today, e.eventDate) && e !in multiset(rows) && 0 <= i < |rows| ==>
        LexLe(rows[i].eventDate, e.eventDate)
  {
    var q := PublicQuery(today);
    var rows := Select(q, table);
    SelectIsTopWindow(q, table);
    FilterCounts(q, table);
    forall e: Event, i | e in multiset(table) && LexLe(today, e.eventDate) && e !in multiset(rows) && 0 <= i < |rows|
      ensures LexLe(rows[i].eventDate, e.eventDate)
    {
      assert e in multiset(Filter(q, table)) - multiset(rows);
    }
  }

  /**
   * When cards are shown they are the upcoming events, one card per row of
   * the answer and in its order.
   */
  lemma ShownCardsAreNextThree(page: Page, today: string, config: ConfigResponse, listing: QueryOutcome, formatDate: string -> string)
    requires LoadEvents(page, today, config, listing, formatDate).page.status == Cleared
    ensures var rows := Upcoming(today, listing);
      var cards := LoadEvents(page, today, config, listing, formatDate).page.cards;
      && listing.QueryAnswered?
      && 0 < |cards| == |rows| <= 3
      && (forall i :: 0 <= i < |rows| ==> LexLe(today, rows[i].eventDate) && cards[i] == RenderCard(rows[i], formatDate))
      && (forall i, j :: 0 <= i < j < |rows| ==> LexLe(rows[i].eventDate, rows[j].eventDate))
      && multiset(rows) <= multiset(listing.table)
      && (forall e, i :: e in multiset(listing.table) && LexLe(today, e.eventDate) && e !in multiset(rows) && 0 <= i < |rows| ==>
            LexLe(rows[i].eventDate, e.eventDate))
  {
    NextThreeSound(today, listing.table);
    NextThreeWindow(today, listing.table);
  }

  /** A card depends on each optional column only through `Normal`. */
  lemma CardSeesOnlyTruthiness(a: Event, b: Event, formatDate: string -> string)
    requires Normal(a.title) == Normal(b.title) && Normal(a.description) == Normal(b.description)
    requires Normal(a.performer) == Normal(b.performer) && Normal(a.startTime) == Normal(b.startTime)
    requires Normal(a.imageUrl) == Normal(b.imageUrl) && a.eventDate == b.eventDate
    ensures RenderCard(a, formatDate) == RenderCard(b, formatDate)
  {
  }

  /** Reads the performer back from a card's performer line. */
  function PerformerOf(line: string): Text
  {
    if |line| >= |PerformerPrefix| && line[..|PerformerPrefix|] == PerformerPrefix
    then Some(line[|PerformerPrefix|..])
    else None
  }

  /**
   * The performer line loses nothing truthiness keeps: the fallback cannot
   * be mistaken for a `Peva: ` line, so the performer is recovered exactly.
   */
  lemma PerformerLineRoundTrip(e: Event, formatDate: string -> string)
    ensures PerformerOf(RenderCard(e, formatDate).performer) == Normal(e.performer)
  {
    if Truthy(e.performer) {
      var line := PerformerPrefix + e.performer.value;
      assert line[..|PerformerPrefix|] == PerformerPrefix;
      assert line[|PerformerPrefix|..] == e.performer.value;
    } else {
      assert PerformerFallback[4] != PerformerPrefix[4];
    }
  }
}

=== FILE: selection.dfy ===
/**
 * The `.gte(...).order("event_date", ...).limit(n)` queries both scripts send,
 * read as a pure selection over the rows of the `events` table.
 */
module Selection {
  import opened Wrappers
  import opened Strings
  import opened EventModel

  datatype Direction = Ascending | Descending

  /** `since` is the `.gte("event_date", since)` bound when present. */
  datatype Query = Query(since: Option<string>, direction: Direction, limit: nat)

  predicate Matches(q: Query, e: Event)
  {
    q.since.None? || LexLe(q.since.value, e.eventDate)
  }

  /** `a` may come before `b` in the query's order on `event_date`. */
  predicate Before(d: Direction, a: Event, b: Event)
  {
    match d
    case Ascending => LexLe(a.eventDate, b.eventDate)
    case Descending => LexLe(b.eventDate, a.eventDate)
  }

  predicate Ordered(d: Direction, s: seq<Event>)
  {
    forall i, j :: 0 <= i < j < |s| ==> Before(d, s[i], s[j])
  }

  lemma BeforeTotal(d: Direction, a: Event, b: Event)
    ensures Before(d, a, b) || Before(d, b, a)
  {
    LexLeTotal(a.eventDate, b.eventDate);
  }

  lemma BeforeTransitive(d: Direction, a: Event, b: Event, c: Event)
    requires Before(d, a, b) && Before(d, b, c)
    ensures Before(d, a, c)
  {
    match d
    case Ascending => LexLeTransitive(a.eventDate, b.eventDate, c.eventDate);
    case Descending => LexLeTransitive(c.eventDate, b.eventDate, a.eventDate);
  }

  /** The rows the filter keeps, in table order. */
  function Filter(q: Query, table: seq<Event>): (r: seq<Event>)
    ensures forall i :: 0 <= i < |r| ==> Matches(q, r[i])
  {
    if |table| == 0 then []
    else (if Matches(q, table[0]) then [table[0]] else []) + Filter(q, table[1..])
  }

  /** The filter keeps every copy of a matching row and no copy of any other. */
  lemma {:induction false} FilterCounts(q: Query, table: seq<Event>)
    ensures var r := Filter(q, table);
      && (forall e :: multiset(r)[e] == if Matches(q, e) then multiset(table)[e] else 0)
      && multiset(r) <= multiset(table)
  {
    if |table| > 0 {
      FilterCounts(q, table[1..]);
      var head := if Matches(q, table[0]) then [table[0]] else [];
      assert table == [table[0]] + table[1..];
      assert multiset(head + Filter(q, table[1..])) == multiset(head) + multiset(Filter(q, table[1..]));
    }
  }

  /** Places `e` in front of the first element it must precede. */
  function Insert(d: Direction, e: Event, s: seq<Event>): (r: seq<Event>)
    requires Ordered(d, s)
    ensures Ordered(d, r)
    ensures |r| == |s| + 1
    ensures forall x :: x in r <==> x == e || x in s
  {
    if |s| == 0 then [e]
    else if Before(d, e, s[0]) then
      forall j | 0 <= j < |s| ensures Before(d, e, s[j]) {
        if j > 0 { BeforeTransitive(d, e, s[0], s[j]); }
      }
      [e] + s
    else
      BeforeTotal(d, e, s[0]);
      var rest := Insert(d, e, s[1..]);
      forall x | x in rest ensures Before(d, s[0], x) {
        if x != e {
          var j :| 0 <= j < |s[1..]| && s[1..][j] == x;
          assert s[j + 1] == x;
        }
      }
      assert s == [s[0]] + s[1..];
      [s[0]] + rest
  }

  lemma {:induction false} InsertPermutes(d: Direction, e: Event, s: seq<Event>)
    requires Ordered(d, s)
    ensures multiset(Insert(d, e, s)) == multiset(s) + multiset{e}
  {
    if |s| > 0 && !Before(d, e, s[0]) {
      InsertPermutes(d, e, s[1..]);
      assert s == [s[0]] + s[1..];
    }
  }

  /** A stable insertion sort: the rows in the query's order. */
  function Sort(d: Direction, s: seq<Event>): (r: seq<Event>)
    ensures Ordered(d, r)
  {
    if |s| == 0 then [] else Insert(d, s[0], Sort(d, s[1..]))
  }

  /** Sorting only rearranges the rows. */
  lemma {:induction false} SortPermutes(d: Direction, s: seq<Event>)
    ensures multiset(Sort(d, s)) == multiset(s)
  {
    if |s| > 0 {
      SortPermutes(d, s[1..]);
      InsertPermutes(d, s[0], Sort(d, s[1..]));
      assert s == [s[0]] + s[1..];
    }
  }

  /** The rows the backend answers `q` with, given the table it holds. */
  function Select(q: Query, table: seq<Event>): seq<Event>
  {
    var sorted := Sort(q.direction, Filter(q, table));
    if |sorted| <= q.limit then sorted else sorted[..q.limit]
  }

  function Min(a: nat, b: nat): nat
  {
    if a <= b then a else b
  }

  /** The number of rows of `table` the filter of `q` keeps. */
  function MatchCount(q: Query, table: seq<Event>): nat
  {
    |Filter(q, table)|
  }

  /** Every element past an ordered prefix comes no earlier than any element of the prefix. */
  lemma PrefixIsLeast(d: Direction, s: seq<Event>, k: nat)
    requires Ordered(d, s) && k <= |s|
    ensures forall e, i :: e in multiset(s) - multiset(s[..k]) && 0 <= i < k ==> Before(d, s[i], e)
  {
    assert s == s[..k] + s[k..];
    assert multiset(s) == multiset(s[..k]) + multiset(s[k..]);
    forall e, i | e in multiset(s) - multiset(s[..k]) && 0 <= i < k
      ensures Before(d, s[i], e)
    {
      assert e in multiset(s[k..]);
      var j :| 0 <= j < |s[k..]| && s[k..][j] == e;
      assert s[k + j] == e;
    }
  }

  /** The answer to `q` holds as many rows as the limit and the matching rows allow. */
  lemma SelectSize(q: Query, table: seq<Event>)
    ensures |Select(q, table)| == Min(q.limit, MatchCount(q, table))
  {
    SortPermutes(q.direction, Filter(q, table));
    assert |multiset(Sort(q.direction, Filter(q, table)))| == |multiset(Filter(q, table))|;
  }

  /** Only matching rows are returned, in the query's order. */
  lemma SelectSound(q: Query, table: seq<Event>)
    ensures var r := Select(q, table);
      && (forall i :: 0 <= i < |r| ==> Matches(q, r[i]))
      && Ordered(q.direction, r)
  {
    var f := Filter(q, table);
    var s := Sort(q.direction, f);
    var r := Select(q, table);
    SortPermutes(q.direction, f);
    assert r == s[..|r|];
    forall i | 0 <= i < |r| ensures Matches(q, r[i]) {
      assert r[i] in multiset(f);
      var j :| 0 <= j < |f| && f[j] == r[i];
    }
  }

  /** Every returned row is a row of the table, returned at most as often as it is stored. */
  lemma SelectFromTable(q: Query, table: seq<Event>)
    ensures multiset(Select(q, table)) <= multiset(table)
  {
    var f := Filter(q, table);
    var s := Sort(q.direction, f);
    FilterCounts(q, table);
    SortPermutes(q.direction, f);
    PrefixSubMultiset(s, |Select(q, table)|);
  }

  lemma PrefixSubMultiset(s: seq<Event>, k: nat)
    requires k <= |s|
    ensures multiset(s[..k]) <= multiset(s)
  {
    assert s == s[..k] + s[k..];
  }

  /** Every matching row the answer leaves out comes no earlier than any row it returns. */
  lemma SelectIsTopWindow(q: Query, table: seq<Event>)
    ensures var r := Select(q, table);
      forall e, i :: e in multiset(Filter(q, table)) - multiset(r) && 0 <= i < |r| ==> Before(q.direction, r[i], e)
  {
    var s := Sort(q.direction, Filter(q, table));
    SortPermutes(q.direction, Filter(q, table));
    PrefixIsLeast(q.direction, s, |Select(q, table)|);
  }
}

=== FILE: strings.dfy ===
/**
 * String helpers the scripts rely on: JavaScript `String.prototype.trim`,
 * lexicographic comparison of ISO date strings, and the decimal rendering
 * of a non-negative integer inside a template literal.
 */
module Strings {

  /** The characters `trim` removes: ECMAScript WhiteSpace and LineTerminator. */
  predicate IsWhitespace(c: char)
  {
    || c == '\t' || c == '\n' || c == '\U{0B}' || c == '\U{0C}' || c == '\r' || c == ' '
    || c == '\U{A0}' || c == '\U{1680}' || ('\U{2000}' <= c <= '\U{200A}')
    || c == '\U{2028}' || c == '\U{2029}' || c == '\U{202F}' || c == '\U{205F}'
    || c == '\U{3000}' || c == '\U{FEFF}'
  }

  predicate Blank(s: string)
  {
    forall i :: 0 <= i < |s| ==> IsWhitespace(s[i])
  }

  function TrimStart(s: string): string
  {
    if |s| > 0 && IsWhitespace(s[0]) then TrimStart(s[1..]) else s
  }

  function TrimEnd(s: string): string
  {
    if |s| > 0 && IsWhitespace(s[|s| - 1]) then TrimEnd(s[..|s| - 1]) else s
  }

  /** `s.trim()`: whitespace cut from both ends. */
  function Trim(s: string): string
  {
    TrimEnd(TrimStart(s))
  }

  /** `TrimStart` cuts a blank prefix and stops at the first non-whitespace character. */
  lemma {:induction false} TrimStartFacts(s: string)
    ensures var r := TrimStart(s);
      && |r| <= |s| && r == s[|s| - |r|..] && Blank(s[..|s| - |r|])
      && (|r| > 0 ==> !IsWhitespace(r[0]))
  {
    if |s| > 0 && IsWhitespace(s[0]) {
      TrimStartFacts(s[1..]);
      var r := TrimStart(s[1..]);
      var k := |s| - |r|;
      assert forall j :: 1 <= j < k ==> s[..k][j] == s[1..][..k - 1][j - 1];
    }
  }

  /** `TrimEnd` cuts a blank suffix and stops at the last non-whitespace character. */
  lemma {:induction false} TrimEndFacts(s: string)
    ensures var r := TrimEnd(s);
      && |r| <= |s| && r == s[..|r|] && Blank(s[|r|..])
      && (|r| > 0 ==> !IsWhitespace(r[|r| - 1]))
  {
    if |s| > 0 && IsWhitespace(s[|s| - 1]) {
      TrimEndFacts(s[..|s| - 1]);
      var r := TrimEnd(s[..|s| - 1]);
      assert s[|r|..] == s[..|s| - 1][|r|..] + [s[|s| - 1]];
    }
  }

  /**
   * The trimmed string is the infix of `s` left once everything on either
   * side of it, all whitespace, is cut off; it neither starts nor ends with
   * whitespace.
   */
  lemma TrimIsInfix(s: string)
    ensures var r := Trim(s);
      && (exists i :: 0 <= i <= |s| - |r| && r == s[i..i + |r|] && Blank(s[..i]) && Blank(s[i + |r|..]))
      && (|r| > 0 ==> !IsWhitespace(r[0]) && !IsWhitespace(r[|r| - 1]))
  {
    var t := TrimStart(s);
    TrimStartFacts(s);
    TrimEndFacts(t);
    var r := TrimEnd(t);
    var i := |s| - |t|;
    assert r == s[i..i + |r|];
    assert s[i + |r|..] == t[|r|..];
  }

  /** A string trims to nothing exactly when every character is whitespace. */
  lemma TrimEmptyIffBlank(s: string)
    ensures Trim(s) == "" <==> Blank(s)
  {
    var r := Trim(s);
    TrimIsInfix(s);
    var i :| 0 <= i <= |s| - |r| && r == s[i..i + |r|] && Blank(s[..i]) && Blank(s[i + |r|..]);
    if r == "" {
      forall k | 0 <= k < |s|
        ensures IsWhitespace(s[k])
      {
        if k < i {
          assert s[..i][k] == s[k];
        } else {
          assert s[i..][k - i] == s[k];
        }
      }
    }
  }

  /** Trimming twice is trimming once. */
  lemma TrimIdempotent(s: string)
    ensures Trim(Trim(s)) == Trim(s)
  {
    var r := Trim(s);
    TrimIsInfix(s);
    assert TrimStart(r) == r;
    assert TrimEnd(r) == r;
  }

  /**
   * The text order the backend applies to `event_date` in `.gte` and
   * `.order`: character by character, a prefix first. On ISO 8601 dates it
   * is date order.
   */
  predicate LexLe(a: string, b: string)
  {
    |a| == 0 || (|b| > 0 && (a[0] < b[0] || (a[0] == b[0] && LexLe(a[1..], b[1..]))))
  }

  lemma {:induction false} LexLeTotal(a: string, b: string)
    ensures LexLe(a, b) || LexLe(b, a)
  {
    if |a| > 0 && |b| > 0 && a[0] == b[0] {
      LexLeTotal(a[1..], b[1..]);
    }
  }

  lemma {:induction false} LexLeTransitive(a: string, b: string, c: string)
    requires LexLe(a, b) && LexLe(b, c)
    ensures LexLe(a, c)
  {
    if |a| > 0 && a[0] == b[0] && b[0] == c[0] {
      LexLeTransitive(a[1..], b[1..], c[1..]);
    }
  }

  predicate IsDigit(c: char)
  {
    '0' <= c <= '9'
  }

  predicate AllDigits(s: string)
  {
    forall i :: 0 <= i < |s| ==> IsDigit(s[i])
  }

  function DigitChar(d: nat): (c: char)
    requires d < 10
    ensures IsDigit(c)
  {
    ('0' as int + d) as char
  }

  function DigitValue(c: char): (d: nat)
    requires IsDigit(c)
    ensures d < 10 && DigitChar(d) == c
  {
    (c as int - '0' as int) as nat
  }

  /** `${n}` for a non-negative integer: its decimal digits, no leading zero. */
  function Decimal(n: nat): string
  {
    if n < 10 then [DigitChar(n)] else Decimal(n / 10) + [DigitChar(n % 10)]
  }

  lemma {:induction false} DecimalDigits(n: nat)
    ensures var r := Decimal(n); |r| > 0 && AllDigits(r) && (|r| > 1 ==> r[0] != '0')
  {
    if n >= 10 {
      DecimalDigits(n / 10);
    }
  }

  /** Reads a string of decimal digits back as a number. */
  function ParseDecimal(s: string): nat
    requires AllDigits(s)
  {
    if |s| == 0 then 0 else ParseDecimal(s[..|s| - 1]) * 10 + DigitValue(s[|s| - 1])
  }

  lemma {:induction false} DecimalRoundTrip(n: nat)
    ensures AllDigits(Decimal(n)) && ParseDecimal(Decimal(n)) == n
  {
    DecimalDigits(n);
    if n >= 10 {
      var s := Decimal(n);
      assert s[..|s| - 1] == Decimal(n / 10);
      DecimalRoundTrip(n / 10);
    }
  }
}

=== FILE: wrappers.dfy ===
/** Optional values and results shared by the whole model. */
module Wrappers {

  /** A value that may be missing (a JavaScript `null` or `undefined`). */
  datatype Option<+T> = None | Some(value: T)
  {
    /** The carried value, or `default` when there is none. */
    function GetOr(default: T): T
    {
      match this
      case Some(v) => v
      case None => default
    }
  }

  /** The outcome of an operation that may throw. */
  datatype Result<+T, +E> = Ok(value: T) | Err(error: E)
}
